=== FILE: README.md ===
# DMN executor: a Dafny model

DmnExecutor is a command-line wrapper around the KIE DMN engine. It has four commands:

- `execute` evaluates a decision model (all decisions, one decision, or a decision service).
- `service` evaluates a named decision service.
- `info` describes every compiled model.
- `help` prints the usage text.

The engine does the compiling and the evaluating. Everything around it is the executor's own logic, and that is what this project models:

- the command-line parser;
- the set of model files handed to the engine;
- the choice of the main model;
- the choice of entry point and the service lookup;
- the result sanitiser, which replaces engine-internal function and decision-service handles with a `[DMN <SimpleName>]` marker and drops nulls and marker-like values from maps and lists;
- the shape of the JSON documents printed by `execute`/`service` and by `info`.

The engine and the JSON reader are parameters (`Commands.Engine`). The file system is an immutable snapshot (`Resources.FileSystem`). Printed documents are datatypes (`Payloads.ResultPayload`, `Info.InfoPayload`, `Commands.Document`). A LinkedHashMap is an insertion-ordered sequence of pairs, where a re-put keeps the key's position and takes the new value. A LinkedHashSet is a duplicate-free sequence (module `Linked`).

Modules, in dependency order:

- `Wrappers`: `Option` and `Result`.
- `Strings`: the `java.lang.String` operations used, including `replace`, `indexOf`, `equalsIgnoreCase` and `List.toString`.
- `Linked`: LinkedHashMap and LinkedHashSet.
- `Values`: the value tree.
- `Sanitizer`: `sanitizeValue`.
- `Dmn`: the engine's data.
- `Paths`: the text `Path.of` makes of a path.
- `Selection`: `findMainModel`.
- `Resources`: the path set of `createRuntime`.
- `Args`: `parseArgs` and `ParsedArgs`.
- `Payloads`: `outputResult`.
- `Info`: `showModelInfo`.
- `Commands`: `main`, `executeDecision`, `executeDecisionService` and `showModelInfo`.

### Behaviour as written

The model follows DmnExecutor.java where a plain description of the tool might suggest otherwise:

- A reference name is the text after the first `#`, so a second `#` is kept.
- An empty map is kept inside a map or list. Only nulls and values rendering with the `[DMN ` prefix are dropped, including ordinary strings that begin with that prefix.
- A missing main file is an uncaught exception, so no JSON document is printed. If the input JSON is bad, `execute` and `service` fail on it before they look at the file.
- `service` does not check the model for errors before evaluating.
- `execute` prints every message text of a model with errors, whatever its severity.
- An evaluation that reports errors is printed with `success: false` and exit status 0.

## Model

| member | source | states |
|---|---|---|
| Sanitizer.Sanitize | skills/dmn-executor-skill/scripts/DmnExecutor.java:140-170 | null stays null and nothing else becomes null; a handle (class in `org.kie.dmn` whose name mentions `Function` or `DecisionService`) becomes `[DMN <SimpleName>]`; any other non-map, non-list value is returned unchanged; maps stay maps, lists stay lists and never grow |
| Sanitizer.SanitizeIsClean | skills/dmn-executor-skill/scripts/DmnExecutor.java:140-170 | the result is clean at every depth: no handle, no null or marker-like element or map value below the top, and map keys are strings without repeats |
| Sanitizer.SanitizeListMembers | skills/dmn-executor-skill/scripts/DmnExecutor.java:162-166 | a sanitised list holds exactly the sanitised input elements that are neither null nor marker-like |
| Sanitizer.SanitizeListSplit | skills/dmn-executor-skill/scripts/DmnExecutor.java:162-166 | lists are sanitised element by element, so survivors keep their relative order |
| Sanitizer.SanitizedMapLastWins | skills/dmn-executor-skill/scripts/DmnExecutor.java:151-157 | a stringified key maps to the sanitised value of the last surviving entry with that key (LinkedHashMap re-put) |
| Sanitizer.SanitizedMapAbsent | skills/dmn-executor-skill/scripts/DmnExecutor.java:153-157 | a key whose entries all sanitise to null or a marker-like value is absent from the result |
| Sanitizer.SanitizedMapInOrder | skills/dmn-executor-skill/scripts/DmnExecutor.java:152-159 | when no two keys stringify alike, the result is the surviving entries in the map's iteration order |
| Sanitizer.KeptPairsSplit | skills/dmn-executor-skill/scripts/DmnExecutor.java:153-158 | map entries are considered one at a time in iteration order |
| Sanitizer.SanitizeIdempotent | skills/dmn-executor-skill/scripts/DmnExecutor.java:140-170 | sanitising a sanitised value changes nothing |
| Sanitizer.NestedHandleDropped | skills/dmn-executor-skill/scripts/DmnExecutor.java:145-147 | a handle's marker is itself marker-like, so a handle inside a list or map is dropped there |
| Sanitizer.FunctionHandleMarked | skills/dmn-executor-skill/scripts/DmnExecutor.java:144-147 | any engine class whose name contains `Function` is replaced with its marker |
| Sanitizer.ServiceHandleMarked | skills/dmn-executor-skill/scripts/DmnExecutor.java:144-147 | any engine class whose name contains `DecisionService` is replaced with its marker |
| Sanitizer.MarkerLikeStringDropped | skills/dmn-executor-skill/scripts/DmnExecutor.java:163-166 | any user string starting `[DMN ` is dropped from a list just as null is, while a number after it stays |
| Sanitizer.KeyCollision | skills/dmn-executor-skill/scripts/DmnExecutor.java:153-157 | integer key 1 and string key "1" collide after `toString`; the key keeps its first position and the later value wins |
| Sanitizer.EmptyMapKept | skills/dmn-executor-skill/scripts/DmnExecutor.java:151-159 | an empty nested map is kept, not dropped |
| Linked.PutAllLastWins | skills/dmn-executor-skill/scripts/DmnExecutor.java:152-156 | after a run of LinkedHashMap puts, a key holds the value of its last put |
| Linked.PutAllFresh | skills/dmn-executor-skill/scripts/DmnExecutor.java:152-156 | puts of distinct new keys append them in order |
| Linked.AddAllFirstOccurrenceOrder | skills/dmn-executor-skill/scripts/DmnExecutor.java:392-416 | a LinkedHashSet lists each element once, in the order of first insertion |
| Strings.RemoveAllSkipsPrefix | skills/dmn-executor-skill/scripts/DmnExecutor.java:366 | `replace` leaves text that cannot start the pattern untouched |
| Strings.ListStringContainsEach | skills/dmn-executor-skill/scripts/DmnExecutor.java:126-129 | the rendering of a list contains every element |
| Dmn.StatusName | skills/dmn-executor-skill/scripts/DmnExecutor.java:192 | the status is printed as one of the five evaluation-status constants |
| Dmn.StatusNameInjective | skills/dmn-executor-skill/scripts/DmnExecutor.java:192 | distinct statuses print distinctly |
| Dmn.ErrorMessages | skills/dmn-executor-skill/scripts/DmnExecutor.java:177-178 | the kept messages are exactly those of ERROR severity |
| Dmn.ErrorMessagesSplit | skills/dmn-executor-skill/scripts/DmnExecutor.java:177-183 | the severity filter keeps the engine's message order |
| Selection.FindMainModel | skills/dmn-executor-skill/scripts/DmnExecutor.java:357-379 | a non-empty explicit name gives the first exact match or nothing, with no fallback; otherwise the first model named like the file's base name ignoring case, else the first model; nothing only for no models or an unmatched explicit name |
| Selection.BaseNameOfDmnFile | skills/dmn-executor-skill/scripts/DmnExecutor.java:365-366 | for a `name` without `.` or `/`, `<dir>/<name>.dmn` has base name `name` |
| Selection.BaseNameOfUpperDmnFile | skills/dmn-executor-skill/scripts/DmnExecutor.java:365-366 | for a `name` without `.` or `/`, `<dir>/<name>.DMN` has base name `name` |
| Selection.BaseNameKeepsMixedCase | skills/dmn-executor-skill/scripts/DmnExecutor.java:366 | any other spelling such as `.Dmn` stays in the base name |
| Selection.BaseNameRemovesInnerOccurrence | skills/dmn-executor-skill/scripts/DmnExecutor.java:366 | every `.dmn` is removed, not only a trailing one |
| Selection.SelectsModelNamedAfterFile | skills/dmn-executor-skill/scripts/DmnExecutor.java:365-372 | without `-m`, the first model named after the main file, ignoring case, is selected |
| Resources.CollectPaths | skills/dmn-executor-skill/scripts/DmnExecutor.java:387-417 | a missing main file fails before anything is collected; a failed directory listing fails; otherwise the main file's absolute path is first and no path appears twice |
| Resources.SiblingPaths | skills/dmn-executor-skill/scripts/DmnExecutor.java:408-416 | siblings are read only with auto-import on and a parent present; an unlistable parent is an error |
| Resources.DmnPaths | skills/dmn-executor-skill/scripts/DmnExecutor.java:399-400 | only paths ending in `.dmn` in any case are kept, each absolutised |
| Resources.CollectPathsMembers | skills/dmn-executor-skill/scripts/DmnExecutor.java:386-416 | the set holds exactly the main file, each import's contribution and, with auto-import, the `.dmn` siblings. Each path is first read as `Path.of` reads it. A directory import contributes its own path when that path ends in `.dmn`, plus its `.dmn` entries. Any other existing import contributes itself, whatever its extension. A missing import contributes nothing |
| Resources.CollectPathsOrder | skills/dmn-executor-skill/scripts/DmnExecutor.java:392-416 | paths are listed in the order of first insertion: main file, imports, siblings |
| Resources.DmnNamedDirectoryCollected | skills/dmn-executor-skill/scripts/DmnExecutor.java:395-401 | a directory import named `*.dmn`, with or without a trailing separator, is itself collected first, since a depth-one walk yields the directory |
| Resources.TrailingSeparatorIgnored | skills/dmn-executor-skill/scripts/DmnExecutor.java:395-405 | an import written `lib.dmn/` brings in exactly what `lib.dmn` does |
| Paths.PathText | skills/dmn-executor-skill/scripts/DmnExecutor.java:386-395 | the path text keeps no doubled separator and no trailing separator other than the root's, and is empty only for an empty argument |
| Paths.PathTextDropsTrailing | skills/dmn-executor-skill/scripts/DmnExecutor.java:386-395 | a trailing separator does not change the path |
| Paths.PathTextIdempotent | skills/dmn-executor-skill/scripts/DmnExecutor.java:386-395 | reading a path's own text again gives the same path |
| Resources.MissingImportSkipped | skills/dmn-executor-skill/scripts/DmnExecutor.java:403-405 | a non-existent import is silently skipped |
| Resources.RepeatedImportsIgnored | skills/dmn-executor-skill/scripts/DmnExecutor.java:392-406 | importing the same paths twice changes nothing |
| Resources.MainFileImportIgnored | skills/dmn-executor-skill/scripts/DmnExecutor.java:392-405 | importing the main file itself changes nothing |
| Args.ParseArgsEffects | skills/dmn-executor-skill/scripts/DmnExecutor.java:445-487 | the values given to `-i` accumulate in order. The last `-m`, the last `-s` and the last `-d` win over anything before them, positionals included. Each `--no-…` switch turns its setting off. The main file is the first positional |
| Args.ParseArgsPositionals | skills/dmn-executor-skill/scripts/DmnExecutor.java:472-482 | when the second positional is neither `{}` nor `-`, it is the input text. Without `-d`, the third positional is the decision if no `-s` precedes it; otherwise the decision stays unset. Later positionals change nothing |
| Args.ApplyKeepsDecision | skills/dmn-executor-skill/scripts/DmnExecutor.java:464-481 | once a decision or a service is set, only a `-d` flag changes the decision |
| Args.FirstWord | skills/dmn-executor-skill/scripts/DmnExecutor.java:472-473 | the main file is the positional word that no other word precedes |
| Args.ParseFromIsApply | skills/dmn-executor-skill/scripts/DmnExecutor.java:449-484 | the scan is a left-to-right reading of tokens in which a value flag takes the next argument when one exists |
| Args.CommandWordIgnored | skills/dmn-executor-skill/scripts/DmnExecutor.java:448 | scanning starts after the command word |
| Args.NoArgumentsGiveDefaults | skills/dmn-executor-skill/scripts/DmnExecutor.java:434-443 | the defaults are input `{}`, no names, no imports, auto-import and type checking on |
| Args.PositionalOrder | skills/dmn-executor-skill/scripts/DmnExecutor.java:472-482 | positionals fill main file, input JSON (while still `{}`), then decision name; a literal `{}` input lets the next positional become the input |
| Args.DashReadsStandardInput | skills/dmn-executor-skill/scripts/DmnExecutor.java:474-479 | `-` as input reads standard input; once read, it is empty |
| Args.FlagValues | skills/dmn-executor-skill/scripts/DmnExecutor.java:460-463 | a value flag at the end is ignored; a value flag followed by a flag takes that flag as its value |
| Args.LastValue | skills/dmn-executor-skill/scripts/DmnExecutor.java:460-471 | the value found is that of the last flag of the kind, and exists exactly when one such flag has a value |
| Payloads.OutputResult | skills/dmn-executor-skill/scripts/DmnExecutor.java:172-210 | `success` is the negated error flag; `errors` is present exactly when errors are reported and lists ERROR messages only; `decisions` is keyed by exactly the decision names and never holds a null result; `results` holds no input key and no null or marker-like value |
| Payloads.ErrorEntries | skills/dmn-executor-skill/scripts/DmnExecutor.java:177-183 | one entry of text and type per ERROR message, in order |
| Payloads.DecisionEntryOf | skills/dmn-executor-skill/scripts/DmnExecutor.java:189-193 | a null result is shown as the string "null", any other as its sanitised form, never dropped |
| Payloads.ResultPairs | skills/dmn-executor-skill/scripts/DmnExecutor.java:199-206 | exactly the context entries whose key is not an input and whose sanitised value survives |
| Payloads.DecisionLookup | skills/dmn-executor-skill/scripts/DmnExecutor.java:187-195 | a decision's entry is found under its name unless a later result has the same name |
| Payloads.ResultsAreReportedContext | skills/dmn-executor-skill/scripts/DmnExecutor.java:198-207 | `results` is the reported context entries in context order |
| Payloads.ResultsLookup | skills/dmn-executor-skill/scripts/DmnExecutor.java:198-207 | a context key looks up its sanitised value when reported, and nothing otherwise |
| Payloads.InputsNeverReported | skills/dmn-executor-skill/scripts/DmnExecutor.java:200 | no input key appears in `results` |
| Payloads.HandleDecisionShowsMarker | skills/dmn-executor-skill/scripts/DmnExecutor.java:189-202 | a handle result shows as its marker under `decisions` but is left out of `results` |
| Info.HrefName | skills/dmn-executor-skill/scripts/DmnExecutor.java:274-275 | with no `#` the reference is returned whole; otherwise it is a `#`-free prefix, `#`, and the result |
| Info.HrefNameRoundTrip | skills/dmn-executor-skill/scripts/DmnExecutor.java:274-275 | building `prefix#name` from a `#`-free prefix and extracting gives back the name, even one containing `#` |
| Info.SecondHashKept | skills/dmn-executor-skill/scripts/DmnExecutor.java:275 | only the first `#` separates |
| Info.RefNames | skills/dmn-executor-skill/scripts/DmnExecutor.java:271-277 | a reference list is present exactly when provided, with each name extracted |
| Info.ServiceInfoOf | skills/dmn-executor-skill/scripts/DmnExecutor.java:265-311 | each of the four reference lists appears exactly when the engine provides it, names extracted |
| Info.NodeInfoOf | skills/dmn-executor-skill/scripts/DmnExecutor.java:247-261 | an untyped input or decision shows type "Any" |
| Info.NonEmpty | skills/dmn-executor-skill/scripts/DmnExecutor.java:313-338 | a list under an optional key is present exactly when non-empty |
| Info.ModelInfoOf | skills/dmn-executor-skill/scripts/DmnExecutor.java:241-348 | name and namespace copied; inputs and decisions listed in order; `decisionServices`, `itemDefinitions`, `businessKnowledgeModels` present exactly when non-empty; an item definition's type only when it has one; `errors` present exactly when the model has errors, with ERROR texts only |
| Info.ShowInfo | skills/dmn-executor-skill/scripts/DmnExecutor.java:240-352 | one entry per compiled model in runtime order, and `modelsLoaded` is their count |
| Info.EmptyListsDiffer | skills/dmn-executor-skill/scripts/DmnExecutor.java:271-315 | an empty but provided reference list is shown, while an empty service list is omitted |
| Commands.FindService | skills/dmn-executor-skill/scripts/DmnExecutor.java:119-131 | succeeds exactly when a service has that exact name, giving the first; otherwise the not-found message |
| Commands.NotFoundListsEveryService | skills/dmn-executor-skill/scripts/DmnExecutor.java:126-129 | the not-found message names the service asked for and every declared service |
| Commands.ServiceBeatsDecision | skills/dmn-executor-skill/scripts/DmnExecutor.java:81-88 | `-d d -s svc` evaluates the service when `svc` is non-empty and the decision otherwise |
| Commands.ChooseEntry | skills/dmn-executor-skill/scripts/DmnExecutor.java:81-88 | the entry point is the service exactly when a non-empty service name is given. It is the decision exactly when no such service is given and a non-empty decision name is. Otherwise every decision is evaluated |
| Commands.CommandLineEntry | skills/dmn-executor-skill/scripts/DmnExecutor.java:81-88 | on any command line: when the last `-s` value is non-empty, that service is evaluated; otherwise, when the last `-d` value is non-empty, that decision is; an empty last `-d` value evaluates every decision |
| Commands.PositionalEntry | skills/dmn-executor-skill/scripts/DmnExecutor.java:81-88 | with neither flag, a third positional names the decision; failing that, every decision is evaluated |
| Commands.Prepare | skills/dmn-executor-skill/scripts/DmnExecutor.java:59-64 | bad input stops first. Otherwise a collection failure is passed on. Otherwise a failed build stops. On success, the models are the engine's build of the collected paths with the type-checking flag |
| Commands.Execute | skills/dmn-executor-skill/scripts/DmnExecutor.java:51-91 | no main file stops without a document; an error document exits 1, a result document exits 0 |
| Commands.ExecuteEvaluates | skills/dmn-executor-skill/scripts/DmnExecutor.java:78-90 | an error-free main model is evaluated at the chosen entry point, and its result document is printed with exit 0 |
| Commands.PreparationFailureStops | skills/dmn-executor-skill/scripts/DmnExecutor.java:59-64 | bad input, a missing file, an unlistable directory or a failed build stops `execute` and `service` with that reason |
| Commands.MainModelMissingReported | skills/dmn-executor-skill/scripts/DmnExecutor.java:67-70 | no main model prints `["Could not find main DMN model"]` with exit 1 in both commands |
| Commands.ExecuteService | skills/dmn-executor-skill/scripts/DmnExecutor.java:93-138 | no main file, then no service name, stops without a document; an error document exits 1, a result document exits 0 |
| Commands.ServiceEvaluates | skills/dmn-executor-skill/scripts/DmnExecutor.java:119-137 | a service the main model declares is evaluated whether or not the model has errors, and the result document is printed with exit 0 |
| Commands.ShowModelInfo | skills/dmn-executor-skill/scripts/DmnExecutor.java:228-238 | no main file stops. A collection or build failure is passed on. Otherwise the printed document is `ShowInfo` of the compiled models, with exit 0 |
| Commands.InfoIgnoresInput | skills/dmn-executor-skill/scripts/DmnExecutor.java:228-238 | `info` never reads the input JSON |
| Commands.Run | skills/dmn-executor-skill/scripts/DmnExecutor.java:30-49 | no arguments show usage with status 1 and `help` with 0. `execute`, `service` and `info` run their handler, and an unknown command stops. A printed document exits 0 exactly when it is not an error document |
| Commands.ExecuteModelErrors | skills/dmn-executor-skill/scripts/DmnExecutor.java:72-75 | whatever the options, a selected main model with errors makes `execute` print every message text with status 1 |
| Commands.ModelErrorsStopOnlyExecute | skills/dmn-executor-skill/scripts/DmnExecutor.java:72-75 | on a command line naming a declared service, a model with errors stops `execute` while `service` evaluates it anyway |
| Commands.FailedEvaluationExitsZero | skills/dmn-executor-skill/scripts/DmnExecutor.java:90 | an evaluation with errors is printed with `success` false and exit status 0 |
| Commands.InputReadBeforeFiles | skills/dmn-executor-skill/scripts/DmnExecutor.java:59-64 | bad input hides a missing file in `execute`; `info` reads no input and reports the file |
| Commands.MissingMainFilePrintsNothing | skills/dmn-executor-skill/scripts/DmnExecutor.java:387-390 | a missing main file prints no document in any command |
| Commands.UnknownServiceReported | skills/dmn-executor-skill/scripts/DmnExecutor.java:125-131 | an unknown service prints the not-found message, which lists every declared service, with exit status 1 |

## Left out

- The KIE DMN engine:
  - building the runtime, evaluating, and the models' `hasErrors` are the parameters `Engine.compile` and `Engine.evaluate`, or data of `Dmn.Model`;
  - the models, messages and results are input data.
- Jackson: reading the input JSON is the parameter `Engine.parseJson`; pretty-printing is not modelled. The documents are datatypes, and the key order of `Map.of` and `HashMap` is not represented.
- Jackson: an input JSON text `null` is outside the model. Java reads it as no map at all without an error, passes the file, build, main-model and error checks, and only then throws; `Engine.parseJson` gives either no input (stop before the files) or an input map (evaluate and print), neither of which is that.
- The file system:
  - an immutable snapshot stands in for it, with the absolute form and the parent of a path as functions;
  - paths are looked up by the text `Path.of` gives them: runs of `/` are collapsed and a trailing `/` is dropped, while `.` and `..` are kept;
  - Windows path syntax is not modelled; `/` is the only separator;
  - a depth-one walk of an existing directory is taken to succeed;
  - a listing of the main file's directory that cannot be read is `ListFailed`.
- Selection.FileName: a main path made only of `/` gives an empty file name. The Java code would throw there, but a directory named as the main file has already failed to build.
- Standard input is the parameter `stdin`. A second read yields the empty text.
- `System.exit`, standard error and the usage text: an outcome records the exit status or the reason for stopping, not the text.
- The process-wide type-checking property is passed to `Engine.compile` as a flag.
- Case conversion (`toLowerCase`, `equalsIgnoreCase`) covers ASCII letters only.
- Numbers in values are integers. The executor does no arithmetic on them.
- Sanitizer.Dropped: the drop test renders only strings. A nested list or map whose `toString` starts with `[DMN ` would also be dropped by the Java code; the model keeps it.
- Sanitizer.Sanitize: maps and lists are the values `MapV` and `ListV`. A map or list class inside the engine's own package whose name mentions `Function` would be taken as a handle in Java; the model does not represent such a class. The simple class name of a handle is supplied with the object, not derived from the class name.
- Sanitizer.SanitizeIsClean: values are finite trees, and any object other than a map or list is an opaque leaf. The Java code would recurse without end on a map or list that contains itself other than through a handle. It returns arrays, sets and other collections unchanged, with any handle inside them. "Clean at every depth" covers only maps and lists.
- Args.ParseArgsPositionals: a second positional `{}` or `-` leaves the input open for the next positional, or reads standard input. The general lemma leaves that case out. The lemmas `Args.PositionalOrder` and `Args.DashReadsStandardInput` state it for short command lines.

=== FILE: args.dfy ===
/** The command-line parser (`parseArgs` and `ParsedArgs`). */
module Args {
  import opened Wrappers

  /** The parsed options. Absent text stands for a Java null. */
  datatype ParsedArgs = ParsedArgs(
    mainDmnFile: Option<string>,
    inputJson: string,
    decisionName: Option<string>,
    serviceName: Option<string>,
    modelName: Option<string>,
    importPaths: seq<string>,
    autoImport: bool,
    runtimeTypeCheck: bool)

  /** The record before any argument is read. */
  const Defaults := ParsedArgs(None, "{}", None, None, None, [], true, true)

  predicate IsImportFlag(a: string) { a == "--import" || a == "-i" }
  predicate IsModelFlag(a: string) { a == "--model" || a == "-m" }
  predicate IsDecisionFlag(a: string) { a == "--decision" || a == "-d" }
  predicate IsServiceFlag(a: string) { a == "--service" || a == "-s" }

  /** A flag that takes the next argument as its value. */
  predicate IsValueFlag(a: string) {
    IsImportFlag(a) || IsModelFlag(a) || IsDecisionFlag(a) || IsServiceFlag(a)
  }

  /** A flag given a value: the import list grows, any other option is
      overwritten. */
  function SetOption(p: ParsedArgs, flag: string, value: string): (r: ParsedArgs)
    requires IsValueFlag(flag)
  {
    if IsImportFlag(flag) then p.(importPaths := p.importPaths + [value])
    else if IsModelFlag(flag) then p.(modelName := Some(value))
    else if IsDecisionFlag(flag) then p.(decisionName := Some(value))
    else p.(serviceName := Some(value))
  }

  /** A positional argument: it becomes the main file, then the input JSON
      while that still has its default text (`-` meaning the rest of standard
      input), then the decision name while neither a decision nor a service is
      set; otherwise it is ignored. Returns the record and what is left of
      standard input. */
  function Positional(p: ParsedArgs, arg: string, stdin: string): (ParsedArgs, string) {
    if p.mainDmnFile.None? then (p.(mainDmnFile := Some(arg)), stdin)
    else if p.inputJson == "{}" then
      if arg == "-" then (p.(inputJson := stdin), "") else (p.(inputJson := arg), stdin)
    else if p.decisionName.None? && p.serviceName.None? then (p.(decisionName := Some(arg)), stdin)
    else (p, stdin)
  }

  /** The scan from position `i` on, as `parseArgs` does it: a value flag takes
      the following argument when there is one and is otherwise ignored. */
  function ParseFrom(args: seq<string>, i: nat, p: ParsedArgs, stdin: string): ParsedArgs
    decreases |args| - i
  {
    if |args| <= i then p
    else
      var arg := args[i];
      if IsValueFlag(arg) then
        if i + 1 < |args| then ParseFrom(args, i + 2, SetOption(p, arg, args[i + 1]), stdin)
        else ParseFrom(args, i + 1, p, stdin)
      else if arg == "--no-auto-import" then ParseFrom(args, i + 1, p.(autoImport := false), stdin)
      else if arg == "--no-typecheck" then ParseFrom(args, i + 1, p.(runtimeTypeCheck := false), stdin)
      else
        var (q, rest) := Positional(p, arg, stdin);
        ParseFrom(args, i + 1, q, rest)
  }

  /** `parseArgs`: the first argument is the command and is skipped. */
  function ParseArgs(args: seq<string>, stdin: string): ParsedArgs {
    ParseFrom(args, 1, Defaults, stdin)
  }

  // A reference reading of the same command line, token by token.

  /** An argument as the parser groups it: a value flag with its value, a
      value flag at the very end, a switch, or a positional word. */
  datatype Token = Valued(flag: string, value: string) | Dangling(flag: string) | Switch(flag: string) | Word(text: string)

  function Tokens(args: seq<string>): (ts: seq<Token>)
    ensures |ts| <= |args|
    ensures forall k :: 0 <= k < |ts| ==> (ts[k].Valued? ==> IsValueFlag(ts[k].flag))
    decreases |args|
  {
    if args == [] then []
    else if IsValueFlag(args[0]) then
      if 1 < |args| then [Valued(args[0], args[1])] + Tokens(args[2..]) else [Dangling(args[0])]
    else if args[0] == "--no-auto-import" || args[0] == "--no-typecheck" then [Switch(args[0])] + Tokens(args[1..])
    else [Word(args[0])] + Tokens(args[1..])
  }

  /** The effect of one token on the record and on what is left of standard
      input. */
  function Step(p: ParsedArgs, stdin: string, t: Token): (ParsedArgs, string)
    requires t.Valued? ==> IsValueFlag(t.flag)
  {
    match t
    case Valued(f, v) => (SetOption(p, f, v), stdin)
    case Dangling(_) => (p, stdin)
    case Switch(f) =>
      if f == "--no-auto-import" then (p.(autoImport := false), stdin)
      else if f == "--no-typecheck" then (p.(runtimeTypeCheck := false), stdin)
      else (p, stdin)
    case Word(w) => Positional(p, w, stdin)
  }

  /** The effect of the tokens, one after another. */
  function Apply(p: ParsedArgs, stdin: string, ts: seq<Token>): ParsedArgs
    requires forall k :: 0 <= k < |ts| ==> (ts[k].Valued? ==> IsValueFlag(ts[k].flag))
    decreases |ts|
  {
    if ts == [] then p
    else
      var (q, rest) := Step(p, stdin, ts[0]);
      Apply(q, rest, ts[1..])
  }

  /** Scanning the arguments is applying their tokens. */
  lemma {:induction false} ParseFromIsApply(args: seq<string>, i: nat, p: ParsedArgs, stdin: string)
    requires i <= |args|
    ensures ParseFrom(args, i, p, stdin) == Apply(p, stdin, Tokens(args[i..]))
    decreases |args| - i
  {
    var rest := args[i..];
    if i < |args| {
      var arg := args[i];
      assert rest[0] == arg;
      if IsValueFlag(arg) {
        if i + 1 < |args| {
          assert rest[2..] == args[i + 2..];
          ParseFromIsApply(args, i + 2, SetOption(p, arg, args[i + 1]), stdin);
        } else {
          assert rest == [arg];
          assert ParseFrom(args, i + 1, p, stdin) == p;
          assert Apply(p, stdin, Tokens(rest)) == Apply(p, stdin, []);
        }
      } else {
        assert rest[1..] == args[i + 1..];
        if arg == "--no-auto-import" {
          ParseFromIsApply(args, i + 1, p.(autoImport := false), stdin);
        } else if arg == "--no-typecheck" {
          ParseFromIsApply(args, i + 1, p.(runtimeTypeCheck := false), stdin);
        } else {
          var (q, s) := Positional(p, arg, stdin);
          ParseFromIsApply(args, i + 1, q, s);
        }
      }
    }
  }

  /** The values given to the import flag, in order. */
  function ImportValues(ts: seq<Token>): seq<string> {
    if ts == [] then []
    else (if ts[0].Valued? && IsImportFlag(ts[0].flag) then [ts[0].value] else []) + ImportValues(ts[1..])
  }

  /** Position `k` holds the last flag accepted by `isFlag`, given `value`. */
  predicate LastAt(ts: seq<Token>, isFlag: string -> bool, k: int, value: string) {
    && 0 <= k < |ts|
    && ts[k].Valued? && ts[k].value == value && isFlag(ts[k].flag)
    && forall j :: k < j < |ts| ==> !(ts[j].Valued? && isFlag(ts[j].flag))
  }

  /** The value of the last flag accepted by `isFlag`, if any. */
  function LastValue(ts: seq<Token>, isFlag: string -> bool): (r: Option<string>)
    ensures r.Some? <==> exists k :: 0 <= k < |ts| && ts[k].Valued? && isFlag(ts[k].flag)
    ensures r.Some? ==> exists k :: LastAt(ts, isFlag, k, r.value)
  {
    if ts == [] then None
    else
      var later := LastValue(ts[1..], isFlag);
      assert forall j :: 1 <= j < |ts| ==> ts[1..][j - 1] == ts[j];
      if later.Some? then
        var k :| LastAt(ts[1..], isFlag, k, later.value);
        assert LastAt(ts, isFlag, k + 1, later.value);
        later
      else if ts[0].Valued? && isFlag(ts[0].flag) then
        assert LastAt(ts, isFlag, 0, ts[0].value);
        Some(ts[0].value)
      else None
  }

  /** Position `k` holds the word `w`, and no word comes before it. */
  predicate FirstWordAt(ts: seq<Token>, k: int, w: string) {
    && 0 <= k < |ts|
    && ts[k] == Word(w)
    && forall j :: 0 <= j < k ==> !ts[j].Word?
  }

  /** The first positional word, if any. */
  function FirstWord(ts: seq<Token>): (r: Option<string>)
    ensures r.Some? ==> exists k :: FirstWordAt(ts, k, r.value)
    ensures r.None? ==> forall k :: 0 <= k < |ts| ==> !ts[k].Word?
  {
    if ts == [] then None
    else if ts[0].Word? then
      assert FirstWordAt(ts, 0, ts[0].text);
      Some(ts[0].text)
    else
      assert forall k :: 1 <= k < |ts| ==> ts[1..][k - 1] == ts[k];
      var r := FirstWord(ts[1..]);
      if r.Some? then
        var k :| FirstWordAt(ts[1..], k, r.value);
        assert FirstWordAt(ts, k + 1, r.value);
        r
      else r
  }

  /** The positional words, in order. */
  function Words(ts: seq<Token>): seq<string> {
    if ts == [] then []
    else (if ts[0].Word? then [ts[0].text] else []) + Words(ts[1..])
  }

  /** The positional words that come before the first service flag given a
      value. */
  function WordsBeforeService(ts: seq<Token>): seq<string> {
    if ts == [] || (ts[0].Valued? && IsServiceFlag(ts[0].flag)) then []
    else (if ts[0].Word? then [ts[0].text] else []) + WordsBeforeService(ts[1..])
  }

  predicate WellFormed(ts: seq<Token>) {
    forall k :: 0 <= k < |ts| ==> (ts[k].Valued? ==> IsValueFlag(ts[k].flag))
  }

  lemma ApplyUnfold(p: ParsedArgs, stdin: string, ts: seq<Token>)
    requires WellFormed(ts) && ts != []
    ensures WellFormed(ts[1..])
    ensures Apply(p, stdin, ts) == Apply(Step(p, stdin, ts[0]).0, Step(p, stdin, ts[0]).1, ts[1..])
  {
    assert forall k :: 1 <= k < |ts| ==> ts[1..][k - 1] == ts[k];
  }

  /** What one token does to each option other than the main file and the
      input text. */
  lemma StepFields(p: ParsedArgs, stdin: string, t: Token)
    requires t.Valued? ==> IsValueFlag(t.flag)
    ensures var q := Step(p, stdin, t).0;
      && q.importPaths == p.importPaths + (if t.Valued? && IsImportFlag(t.flag) then [t.value] else [])
      && q.modelName == (if t.Valued? && IsModelFlag(t.flag) then Some(t.value) else p.modelName)
      && q.serviceName == (if t.Valued? && IsServiceFlag(t.flag) then Some(t.value) else p.serviceName)
      && q.autoImport == (p.autoImport && t != Switch("--no-auto-import"))
      && q.runtimeTypeCheck == (p.runtimeTypeCheck && t != Switch("--no-typecheck"))
  {
  }

  /** What one token does to the main file, the input text and the decision
      name. */
  lemma StepPositionalFields(p: ParsedArgs, stdin: string, t: Token)
    requires t.Valued? ==> IsValueFlag(t.flag)
    ensures var (q, rest) := Step(p, stdin, t);
      && q.mainDmnFile == (if t.Word? && p.mainDmnFile.None? then Some(t.text) else p.mainDmnFile)
      && q.inputJson == (if t.Word? && p.mainDmnFile.Some? && p.inputJson == "{}" then
                           (if t.text == "-" then stdin else t.text)
                         else p.inputJson)
      && q.decisionName == (if t.Valued? && IsDecisionFlag(t.flag) then Some(t.value)
                            else if t.Word? && p.mainDmnFile.Some? && p.inputJson != "{}"
                                    && p.decisionName.None? && p.serviceName.None? then Some(t.text)
                            else p.decisionName)
  {
  }

  lemma LastValueUnfold(ts: seq<Token>, isFlag: string -> bool)
    requires ts != []
    ensures LastValue(ts, isFlag) ==
      if LastValue(ts[1..], isFlag).Some? then LastValue(ts[1..], isFlag)
      else if ts[0].Valued? && isFlag(ts[0].flag) then Some(ts[0].value)
      else None
  {
  }

  /** Token by token, the import values accumulate in order. */
  lemma {:induction false} ApplyImports(p: ParsedArgs, stdin: string, ts: seq<Token>)
    requires WellFormed(ts)
    ensures Apply(p, stdin, ts).importPaths == p.importPaths + ImportValues(ts)
    decreases |ts|
  {
    if ts != [] {
      ApplyUnfold(p, stdin, ts);
      var (q, s) := Step(p, stdin, ts[0]);
      StepFields(p, stdin, ts[0]);
      ApplyImports(q, s, ts[1..]);
      var head := if ts[0].Valued? && IsImportFlag(ts[0].flag) then [ts[0].value] else [];
      assert ImportValues(ts) == head + ImportValues(ts[1..]);
      assert p.importPaths + head + ImportValues(ts[1..]) == p.importPaths + (head + ImportValues(ts[1..]));
    }
  }

  /** The last value given to the model flag, and to the service flag, wins. */
  lemma {:induction false} ApplyLastWins(p: ParsedArgs, stdin: string, ts: seq<Token>)
    requires WellFormed(ts)
    ensures Apply(p, stdin, ts).modelName == (if LastValue(ts, IsModelFlag).Some? then LastValue(ts, IsModelFlag) else p.modelName)
    ensures Apply(p, stdin, ts).serviceName == (if LastValue(ts, IsServiceFlag).Some? then LastValue(ts, IsServiceFlag) else p.serviceName)
    decreases |ts|
  {
    if ts != [] {
      ApplyUnfold(p, stdin, ts);
      var (q, s) := Step(p, stdin, ts[0]);
      StepFields(p, stdin, ts[0]);
      LastValueUnfold(ts, IsModelFlag);
      LastValueUnfold(ts, IsServiceFlag);
      ApplyLastWins(q, s, ts[1..]);
    }
  }

  /** A switch turns its setting off for good. */
  lemma {:induction false} ApplySwitches(p: ParsedArgs, stdin: string, ts: seq<Token>)
    requires WellFormed(ts)
    ensures Apply(p, stdin, ts).autoImport == (p.autoImport && Switch("--no-auto-import") !in ts)
    ensures Apply(p, stdin, ts).runtimeTypeCheck == (p.runtimeTypeCheck && Switch("--no-typecheck") !in ts)
    decreases |ts|
  {
    if ts != [] {
      ApplyUnfold(p, stdin, ts);
      var (q, s) := Step(p, stdin, ts[0]);
      StepFields(p, stdin, ts[0]);
      ApplySwitches(q, s, ts[1..]);
      assert ts == [ts[0]] + ts[1..];
    }
  }

  /** The first word fills an empty main file, which nothing changes later. */
  lemma {:induction false} ApplyMainFile(p: ParsedArgs, stdin: string, ts: seq<Token>)
    requires WellFormed(ts)
    ensures Apply(p, stdin, ts).mainDmnFile == (if p.mainDmnFile.Some? then p.mainDmnFile else FirstWord(ts))
    decreases |ts|
  {
    if ts != [] {
      ApplyUnfold(p, stdin, ts);
      var (q, s) := Step(p, stdin, ts[0]);
      ApplyMainFile(q, s, ts[1..]);
    }
  }

  /** Once a decision or a service is set, only a decision flag changes the
      decision: later positionals are ignored. */
  lemma {:induction false} ApplyKeepsDecision(p: ParsedArgs, stdin: string, ts: seq<Token>)
    requires WellFormed(ts) && LastValue(ts, IsDecisionFlag).None?
    requires p.decisionName.Some? || p.serviceName.Some?
    ensures Apply(p, stdin, ts).decisionName == p.decisionName
    decreases |ts|
  {
    if ts != [] {
      ApplyUnfold(p, stdin, ts);
      var (q, s) := Step(p, stdin, ts[0]);
      StepFields(p, stdin, ts[0]);
      StepPositionalFields(p, stdin, ts[0]);
      LastValueUnfold(ts, IsDecisionFlag);
      ApplyKeepsDecision(q, s, ts[1..]);
    }
  }

  /** The last value given to the decision flag wins over everything else. */
  lemma {:induction false} ApplyLastDecision(p: ParsedArgs, stdin: string, ts: seq<Token>)
    requires WellFormed(ts) && LastValue(ts, IsDecisionFlag).Some?
    ensures Apply(p, stdin, ts).decisionName == LastValue(ts, IsDecisionFlag)
    decreases |ts|
  {
    ApplyUnfold(p, stdin, ts);
    var (q, s) := Step(p, stdin, ts[0]);
    StepPositionalFields(p, stdin, ts[0]);
    LastValueUnfold(ts, IsDecisionFlag);
    if LastValue(ts[1..], IsDecisionFlag).Some? {
      ApplyLastDecision(q, s, ts[1..]);
    } else {
      ApplyKeepsDecision(q, s, ts[1..]);
    }
  }

  /** The word lists, one token at a time. */
  lemma WordsUnfold(ts: seq<Token>)
    requires ts != []
    ensures Words(ts) == (if ts[0].Word? then [ts[0].text] + Words(ts[1..]) else Words(ts[1..]))
    ensures WordsBeforeService(ts) ==
      if ts[0].Valued? && IsServiceFlag(ts[0].flag) then []
      else if ts[0].Word? then [ts[0].text] + WordsBeforeService(ts[1..])
      else WordsBeforeService(ts[1..])
  {
  }

  /** Without a service flag, every word comes before the first one. */
  lemma {:induction false} NoServiceWordsAll(ts: seq<Token>)
    requires LastValue(ts, IsServiceFlag).None?
    ensures WordsBeforeService(ts) == Words(ts)
  {
    if ts != [] {
      LastValueUnfold(ts, IsServiceFlag);
      WordsUnfold(ts);
      NoServiceWordsAll(ts[1..]);
    }
  }

  /** With a main file and an input text other than `{}`, no positional
      touches the input again. */
  lemma {:induction false} ApplyKeepsInput(p: ParsedArgs, stdin: string, ts: seq<Token>)
    requires WellFormed(ts) && p.mainDmnFile.Some? && p.inputJson != "{}"
    ensures Apply(p, stdin, ts).inputJson == p.inputJson
    decreases |ts|
  {
    if ts != [] {
      ApplyUnfold(p, stdin, ts);
      var (q, s) := Step(p, stdin, ts[0]);
      StepPositionalFields(p, stdin, ts[0]);
      ApplyKeepsInput(q, s, ts[1..]);
    }
  }

  /** With the main file set and the input at `{}`, the next word is the
      input, unless it is `{}` or `-`. */
  lemma {:induction false} ApplyInputAfterMain(p: ParsedArgs, stdin: string, ts: seq<Token>)
    requires WellFormed(ts) && p.mainDmnFile.Some? && p.inputJson == "{}"
    requires Words(ts) != [] ==> Words(ts)[0] != "{}" && Words(ts)[0] != "-"
    ensures Apply(p, stdin, ts).inputJson == if Words(ts) == [] then "{}" else Words(ts)[0]
    decreases |ts|
  {
    if ts != [] {
      ApplyUnfold(p, stdin, ts);
      var (q, s) := Step(p, stdin, ts[0]);
      StepPositionalFields(p, stdin, ts[0]);
      WordsUnfold(ts);
      if ts[0].Word? {
        ApplyKeepsInput(q, s, ts[1..]);
      } else {
        ApplyInputAfterMain(q, s, ts[1..]);
      }
    }
  }

  /** From the defaults, the second word is the input, unless it is `{}` or
      `-`. */
  lemma {:induction false} ApplyInput(p: ParsedArgs, stdin: string, ts: seq<Token>)
    requires WellFormed(ts) && p.mainDmnFile.None? && p.inputJson == "{}"
    requires |Words(ts)| >= 2 ==> Words(ts)[1] != "{}" && Words(ts)[1] != "-"
    ensures Apply(p, stdin, ts).inputJson == if |Words(ts)| < 2 then "{}" else Words(ts)[1]
    decreases |ts|
  {
    if ts != [] {
      ApplyUnfold(p, stdin, ts);
      var (q, s) := Step(p, stdin, ts[0]);
      StepPositionalFields(p, stdin, ts[0]);
      WordsUnfold(ts);
      if ts[0].Word? {
        ApplyInputAfterMain(q, s, ts[1..]);
      } else {
        ApplyInput(q, s, ts[1..]);
      }
    }
  }

  /** With main file and input set and neither decision nor service, the next
      word before any service flag becomes the decision. */
  lemma {:induction false} ApplyDecisionAfterInput(p: ParsedArgs, stdin: string, ts: seq<Token>)
    requires WellFormed(ts) && LastValue(ts, IsDecisionFlag).None?
    requires p.mainDmnFile.Some? && p.inputJson != "{}" && p.decisionName.None? && p.serviceName.None?
    ensures Apply(p, stdin, ts).decisionName ==
      if WordsBeforeService(ts) == [] then None else Some(WordsBeforeService(ts)[0])
    decreases |ts|
  {
    if ts != [] {
      ApplyUnfold(p, stdin, ts);
      var (q, s) := Step(p, stdin, ts[0]);
      StepFields(p, stdin, ts[0]);
      StepPositionalFields(p, stdin, ts[0]);
      LastValueUnfold(ts, IsDecisionFlag);
      WordsUnfold(ts);
      if ts[0].Word? || (ts[0].Valued? && IsServiceFlag(ts[0].flag)) {
        ApplyKeepsDecision(q, s, ts[1..]);
      } else {
        ApplyDecisionAfterInput(q, s, ts[1..]);
      }
    }
  }

  /** With the main file set, the input at `{}` and neither decision nor
      service, the second word before any service flag becomes the decision. */
  lemma {:induction false} ApplyDecisionAfterMain(p: ParsedArgs, stdin: string, ts: seq<Token>)
    requires WellFormed(ts) && LastValue(ts, IsDecisionFlag).None?
    requires p.mainDmnFile.Some? && p.inputJson == "{}" && p.decisionName.None? && p.serviceName.None?
    requires Words(ts) != [] ==> Words(ts)[0] != "{}" && Words(ts)[0] != "-"
    ensures Apply(p, stdin, ts).decisionName ==
      if |WordsBeforeService(ts)| < 2 then None else Some(WordsBeforeService(ts)[1])
    decreases |ts|
  {
    if ts != [] {
      ApplyUnfold(p, stdin, ts);
      var (q, s) := Step(p, stdin, ts[0]);
      StepFields(p, stdin, ts[0]);
      StepPositionalFields(p, stdin, ts[0]);
      LastValueUnfold(ts, IsDecisionFlag);
      WordsUnfold(ts);
      if ts[0].Valued? && IsServiceFlag(ts[0].flag) {
        ApplyKeepsDecision(q, s, ts[1..]);
      } else if ts[0].Word? {
        ApplyDecisionAfterInput(q, s, ts[1..]);
      } else {
        ApplyDecisionAfterMain(q, s, ts[1..]);
      }
    }
  }

  /** From the defaults, the third word before any service flag becomes the
      decision, provided the second word is not `{}` or `-`. */
  lemma {:induction false} ApplyDecision(p: ParsedArgs, stdin: string, ts: seq<Token>)
    requires WellFormed(ts) && LastValue(ts, IsDecisionFlag).None?
    requires p.mainDmnFile.None? && p.inputJson == "{}" && p.decisionName.None? && p.serviceName.None?
    requires |Words(ts)| >= 2 ==> Words(ts)[1] != "{}" && Words(ts)[1] != "-"
    ensures Apply(p, stdin, ts).decisionName ==
      if |WordsBeforeService(ts)| < 3 then None else Some(WordsBeforeService(ts)[2])
    decreases |ts|
  {
    if ts != [] {
      ApplyUnfold(p, stdin, ts);
      var (q, s) := Step(p, stdin, ts[0]);
      StepFields(p, stdin, ts[0]);
      StepPositionalFields(p, stdin, ts[0]);
      LastValueUnfold(ts, IsDecisionFlag);
      WordsUnfold(ts);
      if ts[0].Valued? && IsServiceFlag(ts[0].flag) {
        ApplyKeepsDecision(q, s, ts[1..]);
      } else if ts[0].Word? {
        ApplyDecisionAfterMain(q, s, ts[1..]);
      } else {
        ApplyDecision(q, s, ts[1..]);
      }
    }
  }

  /** What `parseArgs` makes of a command line, in terms of its tokens after the
      command word. */
  lemma ParseArgsEffects(args: seq<string>, stdin: string)
    requires |args| >= 1
    ensures var p := ParseArgs(args, stdin);
      var ts := Tokens(args[1..]);
      && p.importPaths == ImportValues(ts)
      && p.modelName == LastValue(ts, IsModelFlag)
      && p.serviceName == LastValue(ts, IsServiceFlag)
      && p.autoImport == (Switch("--no-auto-import") !in ts)
      && p.runtimeTypeCheck == (Switch("--no-typecheck") !in ts)
      && p.mainDmnFile == FirstWord(ts)
      && (LastValue(ts, IsDecisionFlag).Some? ==> p.decisionName == LastValue(ts, IsDecisionFlag))
  {
    var ts := Tokens(args[1..]);
    ParseFromIsApply(args, 1, Defaults, stdin);
    ApplyImports(Defaults, stdin, ts);
    ApplyLastWins(Defaults, stdin, ts);
    ApplySwitches(Defaults, stdin, ts);
    ApplyMainFile(Defaults, stdin, ts);
    if LastValue(ts, IsDecisionFlag).Some? {
      ApplyLastDecision(Defaults, stdin, ts);
    }
  }

  /** The positionals of a command line: the second word is the input text and,
      without a decision flag, the third word becomes the decision, provided
      it comes before every service flag; further words are ignored. This
      holds when the second word is neither `{}` nor `-`. */
  lemma ParseArgsPositionals(args: seq<string>, stdin: string)
    requires |args| >= 1
    requires var ws := Words(Tokens(args[1..])); |ws| >= 2 ==> ws[1] != "{}" && ws[1] != "-"
    ensures var p := ParseArgs(args, stdin);
      var ts := Tokens(args[1..]);
      && p.inputJson == (if |Words(ts)| < 2 then "{}" else Words(ts)[1])
      && (LastValue(ts, IsDecisionFlag).None? ==>
            p.decisionName == (if |WordsBeforeService(ts)| < 3 then None else Some(WordsBeforeService(ts)[2])))
  {
    var ts := Tokens(args[1..]);
    ParseFromIsApply(args, 1, Defaults, stdin);
    ApplyInput(Defaults, stdin, ts);
    if LastValue(ts, IsDecisionFlag).None? {
      ApplyDecision(Defaults, stdin, ts);
    }
  }

  /** The command word itself is never read as an option. */
  lemma CommandWordIgnored(c: string, d: string, rest: seq<string>, stdin: string)
    ensures ParseArgs([c] + rest, stdin) == ParseArgs([d] + rest, stdin)
  {
    ParseFromIsApply([c] + rest, 1, Defaults, stdin);
    ParseFromIsApply([d] + rest, 1, Defaults, stdin);
    assert ([c] + rest)[1..] == rest == ([d] + rest)[1..];
  }

  /** Only the command: every option keeps its default. */
  lemma NoArgumentsGiveDefaults(c: string, stdin: string)
    ensures ParseArgs([c], stdin) == Defaults
  {
  }

  /** A second positional equal to `{}` leaves the input JSON at its default,
      so a third positional becomes the input JSON rather than the decision
      name; any other second positional is the input and the third one the
      decision. */
  lemma PositionalOrder(f: string, json: string, d: string, stdin: string)
    requires !IsValueFlag(f) && f != "--no-auto-import" && f != "--no-typecheck"
    requires !IsValueFlag(json) && json != "--no-auto-import" && json != "--no-typecheck" && json != "-"
    requires !IsValueFlag(d) && d != "--no-auto-import" && d != "--no-typecheck" && d != "-"
    ensures json == "{}" ==> ParseArgs(["execute", f, json, d], stdin) == Defaults.(mainDmnFile := Some(f), inputJson := d)
    ensures json != "{}" ==>
      ParseArgs(["execute", f, json, d], stdin) == Defaults.(mainDmnFile := Some(f), inputJson := json, decisionName := Some(d))
  {
    var args := ["execute", f, json, d];
    var p1 := Defaults.(mainDmnFile := Some(f));
    assert ParseFrom(args, 1, Defaults, stdin) == ParseFrom(args, 2, p1, stdin);
    var p2 := p1.(inputJson := json);
    assert ParseFrom(args, 2, p1, stdin) == ParseFrom(args, 3, p2, stdin);
    var p3 := if json == "{}" then p2.(inputJson := d) else p2.(decisionName := Some(d));
    assert ParseFrom(args, 3, p2, stdin) == ParseFrom(args, 4, p3, stdin);
  }

  /** `-` in the input position reads standard input; read once, it is empty. */
  lemma DashReadsStandardInput(f: string, stdin: string)
    requires !IsValueFlag(f) && f != "--no-auto-import" && f != "--no-typecheck"
    ensures ParseArgs(["execute", f, "-"], stdin).inputJson == stdin
    ensures stdin == "{}" ==> ParseArgs(["execute", f, "-", "-"], stdin).inputJson == ""
  {
    var p1 := Defaults.(mainDmnFile := Some(f));
    var a := ["execute", f, "-"];
    assert ParseFrom(a, 1, Defaults, stdin) == ParseFrom(a, 2, p1, stdin);
    assert ParseFrom(a, 2, p1, stdin) == ParseFrom(a, 3, p1.(inputJson := stdin), "");
    var b := ["execute", f, "-", "-"];
    assert ParseFrom(b, 1, Defaults, stdin) == ParseFrom(b, 2, p1, stdin);
    assert ParseFrom(b, 2, p1, stdin) == ParseFrom(b, 3, p1.(inputJson := stdin), "");
    if stdin == "{}" {
      assert ParseFrom(b, 3, p1.(inputJson := stdin), "") == ParseFrom(b, 4, p1.(inputJson := ""), "");
    }
  }

  /** A value flag at the very end is ignored, while a value flag followed by
      another flag takes that flag as its value. */
  lemma FlagValues(f: string, stdin: string)
    requires !IsValueFlag(f) && f != "--no-auto-import" && f != "--no-typecheck"
    ensures ParseArgs(["execute", f, "-m"], stdin) == Defaults.(mainDmnFile := Some(f))
    ensures ParseArgs(["execute", f, "-m", "-i"], stdin) == Defaults.(mainDmnFile := Some(f), modelName := Some("-i"))
  {
    var p1 := Defaults.(mainDmnFile := Some(f));
    var a := ["execute", f, "-m"];
    assert ParseFrom(a, 1, Defaults, stdin) == ParseFrom(a, 2, p1, stdin);
    assert IsValueFlag(a[2]) && !(3 < |a|);
    assert ParseFrom(a, 2, p1, stdin) == ParseFrom(a, 3, p1, stdin);
    var b := ["execute", f, "-m", "-i"];
    assert ParseFrom(b, 1, Defaults, stdin) == ParseFrom(b, 2, p1, stdin);
    assert IsModelFlag(b[2]);
    assert ParseFrom(b, 2, p1, stdin) == ParseFrom(b, 4, p1.(modelName := Some("-i")), stdin);
  }
}

=== FILE: commands.dfy ===
/** The command layer (`main`, `executeDecision`, `executeDecisionService`,
    `showModelInfo`): which checks run, in which order, what each prints and
    with which exit status. The engine and the JSON reader are parameters. */
module Commands {
  import opened Wrappers
  import opened Strings
  import opened Values
  import opened Dmn
  import opened Args
  import opened Selection
  import opened Resources
  import opened Paths
  import opened Payloads
  import opened Info

  /** The evaluation an `execute` asks of the engine. */
  datatype EntryPoint = ByService(service: string) | ByDecision(decision: string) | AllDecisions

  /** The engine and the JSON reader, as the executor sees them: parsing an
      input text (absent when the text is not a JSON object), building the
      models from a path set with or without type checking (absent when the
      build fails), and evaluating a model on an input context. */
  datatype Engine = Engine(
    parseJson: string -> Option<seq<(string, Value)>>,
    compile: (seq<string>, bool) -> Option<seq<Model>>,
    evaluate: (Model, seq<(string, Value)>, EntryPoint) -> EvalResult)

  /** A document printed on standard output. */
  datatype Document =
    | ErrorDoc(errors: seq<string>)        // {"success": false, "errors": [...]}
    | ResultDoc(result: ResultPayload)
    | InfoDoc(info: InfoPayload)

  /** Why a command stops without printing a document: a message on standard
      error followed by exit status 1 (for an unknown command the usage text
      is printed on standard output in between), or an uncaught exception. */
  datatype Stop =
    | NoDmnFile
    | NoServiceName
    | UnknownCommand(command: string)
    | BadInputJson
    | PathError(error: ResourceError)
    | BuildFailed

  datatype Outcome =
    | Printed(doc: Document, exitCode: int)
    | Usage(exitCode: int)
    | Stopped(reason: Stop)

  const MainModelMissing := "Could not find main DMN model"

  /** The entry point of `execute`: a non-empty service name wins over a
      non-empty decision name; with neither, every decision is evaluated. */
  function ChooseEntry(p: ParsedArgs): (r: EntryPoint)
    ensures r.ByService? <==> p.serviceName.Some? && p.serviceName.value != ""
    ensures r.ByService? ==> r.service == p.serviceName.value
    ensures r.ByDecision? <==> !r.ByService? && p.decisionName.Some? && p.decisionName.value != ""
    ensures r.ByDecision? ==> r.decision == p.decisionName.value
  {
    if p.serviceName.Some? && p.serviceName.value != "" then ByService(p.serviceName.value)
    else if p.decisionName.Some? && p.decisionName.value != "" then ByDecision(p.decisionName.value)
    else AllDecisions
  }

  function ServiceNames(m: Model): (r: seq<string>)
    ensures |r| == |m.services| && forall i :: 0 <= i < |r| ==> r[i] == m.services[i].name
  {
    seq(|m.services|, i requires 0 <= i < |m.services| => m.services[i].name)
  }

  function NotFoundMessage(m: Model, name: string): string {
    "Decision service '" + name + "' not found. Available: " + ListString(ServiceNames(m))
  }

  /** The service lookup of `service`: the first declared service with exactly
      that name, or the error naming the service and listing all of them. */
  function FindService(m: Model, name: string): (r: Result<ServiceDecl, string>)
    ensures r.Success? <==> exists i :: 0 <= i < |m.services| && m.services[i].name == name
    ensures r.Success? ==> exists i :: 0 <= i < |m.services| && r.value == m.services[i] && r.value.name == name
                             && forall j :: 0 <= j < i ==> m.services[j].name != name
    ensures r.Failure? ==> r.error == NotFoundMessage(m, name)
  {
    var k := FirstService(m.services, name);
    if k < 0 then Failure(NotFoundMessage(m, name)) else Success(m.services[k])
  }

  function FirstService(ss: seq<ServiceDecl>, name: string): (r: int)
    ensures -1 <= r < |ss|
    ensures r == -1 <==> forall i :: 0 <= i < |ss| ==> ss[i].name != name
    ensures 0 <= r ==> ss[r].name == name && forall j :: 0 <= j < r ==> ss[j].name != name
  {
    if ss == [] then -1
    else if ss[0].name == name then 0
    else
      var k := FirstService(ss[1..], name);
      assert forall j :: 1 <= j < |ss| ==> ss[1..][j - 1] == ss[j];
      if k < 0 then -1 else k + 1
  }

  /** The error for an unknown service names it and every service the model
      declares. */
  lemma NotFoundListsEveryService(m: Model, name: string)
    ensures FindService(m, name).Failure? ==>
      Contains(FindService(m, name).error, name) &&
      forall i :: 0 <= i < |m.services| ==> Contains(FindService(m, name).error, m.services[i].name)
  {
    var names := ServiceNames(m);
    var tail := ListString(names);
    var msg := NotFoundMessage(m, name);
    ContainsSelf("Decision service '", name, "' not found. Available: " + tail);
    assert "Decision service '" + name + ("' not found. Available: " + tail) == msg;
    ListStringContainsEach(names);
    forall i | 0 <= i < |m.services|
      ensures Contains(msg, m.services[i].name)
    {
      assert names[i] in names;
      ContainsWithin("Decision service '" + name + "' not found. Available: ", tail, "", m.services[i].name);
      assert "Decision service '" + name + "' not found. Available: " + tail + "" == msg;
    }
  }

  /** Reading the input, collecting the paths and building the models: the
      steps `execute` and `service` share, in their order. */
  function Prepare(p: ParsedArgs, mainFile: string, fs: FileSystem, engine: Engine)
    : (r: Result<(seq<(string, Value)>, seq<Model>), Stop>)
    ensures engine.parseJson(p.inputJson).None? ==> r == Failure(BadInputJson)
    ensures engine.parseJson(p.inputJson).Some? && PathText(mainFile) !in fs.nodes ==> r == Failure(PathError(FileNotFound(mainFile)))
    ensures engine.parseJson(p.inputJson).Some? && CollectPaths(fs, mainFile, p.importPaths, p.autoImport).Failure? ==>
      r == Failure(PathError(CollectPaths(fs, mainFile, p.importPaths, p.autoImport).error))
    ensures r.Success? <==>
      && engine.parseJson(p.inputJson).Some?
      && CollectPaths(fs, mainFile, p.importPaths, p.autoImport).Success?
      && engine.compile(CollectPaths(fs, mainFile, p.importPaths, p.autoImport).value, p.runtimeTypeCheck).Some?
    ensures r.Failure? && engine.parseJson(p.inputJson).Some? && CollectPaths(fs, mainFile, p.importPaths, p.autoImport).Success? ==>
      r == Failure(BuildFailed)
    ensures r.Success? ==> Some(r.value.0) == engine.parseJson(p.inputJson)
    ensures r.Success? ==>
      Some(r.value.1) == engine.compile(CollectPaths(fs, mainFile, p.importPaths, p.autoImport).value, p.runtimeTypeCheck)
  {
    match engine.parseJson(p.inputJson)
    case None => Failure(BadInputJson)
    case Some(inputs) =>
      match CollectPaths(fs, mainFile, p.importPaths, p.autoImport)
      case Failure(e) => Failure(PathError(e))
      case Success(paths) =>
        match engine.compile(paths, p.runtimeTypeCheck)
        case None => Failure(BuildFailed)
        case Some(models) => Success((inputs, models))
  }

  /** `executeDecision`. */
  function Execute(args: seq<string>, stdin: string, fs: FileSystem, engine: Engine): (r: Outcome)
    requires |args| >= 1
    ensures ParseArgs(args, stdin).mainDmnFile.None? ==> r == Stopped(NoDmnFile)
    ensures r.Printed? && r.doc.ErrorDoc? ==> r.exitCode == 1
    ensures r.Printed? && r.doc.ResultDoc? ==> r.exitCode == 0
    ensures r.Printed? ==> !r.doc.InfoDoc?
  {
    var p := ParseArgs(args, stdin);
    match p.mainDmnFile
    case None => Stopped(NoDmnFile)
    case Some(mainFile) =>
      match Prepare(p, mainFile, fs, engine)
      case Failure(stop) => Stopped(stop)
      case Success((inputs, models)) =>
        match FindMainModel(models, mainFile, p.modelName)
        case None => Printed(ErrorDoc([MainModelMissing]), 1)
        case Some(m) =>
          if m.hasErrors then Printed(ErrorDoc(Texts(m.messages)), 1)
          else Printed(ResultDoc(OutputResult(engine.evaluate(m, inputs, ChooseEntry(p)), inputs)), 0)
  }

  /** `executeDecisionService`. */
  function ExecuteService(args: seq<string>, stdin: string, fs: FileSystem, engine: Engine): (r: Outcome)
    requires |args| >= 1
    ensures ParseArgs(args, stdin).mainDmnFile.None? ==> r == Stopped(NoDmnFile)
    ensures ParseArgs(args, stdin).mainDmnFile.Some? && ParseArgs(args, stdin).serviceName.None? ==> r == Stopped(NoServiceName)
    ensures r.Printed? && r.doc.ErrorDoc? ==> r.exitCode == 1
    ensures r.Printed? && r.doc.ResultDoc? ==> r.exitCode == 0
    ensures r.Printed? ==> !r.doc.InfoDoc?
  {
    var p := ParseArgs(args, stdin);
    match p.mainDmnFile
    case None => Stopped(NoDmnFile)
    case Some(mainFile) =>
      match p.serviceName
      case None => Stopped(NoServiceName)
      case Some(name) =>
        match Prepare(p, mainFile, fs, engine)
        case Failure(stop) => Stopped(stop)
        case Success((inputs, models)) =>
          match FindMainModel(models, mainFile, p.modelName)
          case None => Printed(ErrorDoc([MainModelMissing]), 1)
          case Some(m) =>
            match FindService(m, name)
            case Failure(msg) => Printed(ErrorDoc([msg]), 1)
            case Success(_) => Printed(ResultDoc(OutputResult(engine.evaluate(m, inputs, ByService(name)), inputs)), 0)
  }

  /** `showModelInfo`: no input is read, every compiled model is described. */
  function ShowModelInfo(args: seq<string>, stdin: string, fs: FileSystem, engine: Engine): (r: Outcome)
    requires |args| >= 1
    ensures ParseArgs(args, stdin).mainDmnFile.None? ==> r == Stopped(NoDmnFile)
    ensures r.Printed? ==> r.exitCode == 0 && r.doc.InfoDoc?
    ensures var p := ParseArgs(args, stdin);
      p.mainDmnFile.Some? ==>
        var paths := CollectPaths(fs, p.mainDmnFile.value, p.importPaths, p.autoImport);
        && (paths.Failure? ==> r == Stopped(PathError(paths.error)))
        && (paths.Success? && engine.compile(paths.value, p.runtimeTypeCheck).None? ==> r == Stopped(BuildFailed))
        && (paths.Success? && engine.compile(paths.value, p.runtimeTypeCheck).Some? ==>
              r == Printed(InfoDoc(ShowInfo(engine.compile(paths.value, p.runtimeTypeCheck).value)), 0))
  {
    var p := ParseArgs(args, stdin);
    match p.mainDmnFile
    case None => Stopped(NoDmnFile)
    case Some(mainFile) =>
      match CollectPaths(fs, mainFile, p.importPaths, p.autoImport)
      case Failure(e) => Stopped(PathError(e))
      case Success(paths) =>
        match engine.compile(paths, p.runtimeTypeCheck)
        case None => Stopped(BuildFailed)
        case Some(models) => Printed(InfoDoc(ShowInfo(models)), 0)
  }

  /** `main`: the first argument names the command. */
  function Run(args: seq<string>, stdin: string, fs: FileSystem, engine: Engine): (r: Outcome)
    ensures args == [] ==> r == Usage(1)
    ensures args != [] && args[0] !in {"execute", "service", "info", "help"} ==> r == Stopped(UnknownCommand(args[0]))
    ensures args != [] && args[0] == "help" ==> r == Usage(0)
    ensures r.Printed? ==> (r.exitCode == 0 <==> !r.doc.ErrorDoc?)
    ensures r.Printed? && r.doc.InfoDoc? ==> args[0] == "info"
    ensures r.Printed? && r.doc.ResultDoc? ==> args[0] in {"execute", "service"}
    ensures args != [] && args[0] == "execute" ==> r == Execute(args, stdin, fs, engine)
    ensures args != [] && args[0] == "service" ==> r == ExecuteService(args, stdin, fs, engine)
    ensures args != [] && args[0] == "info" ==> r == ShowModelInfo(args, stdin, fs, engine)
  {
    if args == [] then Usage(1)
    else if args[0] == "execute" then Execute(args, stdin, fs, engine)
    else if args[0] == "service" then ExecuteService(args, stdin, fs, engine)
    else if args[0] == "info" then ShowModelInfo(args, stdin, fs, engine)
    else if args[0] == "help" then Usage(0)
    else Stopped(UnknownCommand(args[0]))
  }

  /** On the command line, a service given with `-s` wins over a decision
      given with `-d`, whichever comes first; an empty service name does not. */
  lemma ServiceBeatsDecision(f: string, d: string, svc: string, stdin: string)
    requires !IsValueFlag(f) && f != "--no-auto-import" && f != "--no-typecheck"
    requires d != ""
    ensures svc != "" ==> ChooseEntry(ParseArgs(["execute", f, "-d", d, "-s", svc], stdin)) == ByService(svc)
    ensures svc == "" ==> ChooseEntry(ParseArgs(["execute", f, "-d", d, "-s", svc], stdin)) == ByDecision(d)
  {
    var a := ["execute", f, "-d", d, "-s", svc];
    var p1 := Defaults.(mainDmnFile := Some(f));
    assert ParseFrom(a, 1, Defaults, stdin) == ParseFrom(a, 2, p1, stdin);
    assert IsDecisionFlag(a[2]) && !IsImportFlag(a[2]) && !IsModelFlag(a[2]);
    var p2 := p1.(decisionName := Some(d));
    assert ParseFrom(a, 2, p1, stdin) == ParseFrom(a, 4, p2, stdin);
    assert IsServiceFlag(a[4]) && !IsImportFlag(a[4]) && !IsModelFlag(a[4]) && !IsDecisionFlag(a[4]);
    assert ParseFrom(a, 4, p2, stdin) == ParseFrom(a, 6, p2.(serviceName := Some(svc)), stdin);
  }

  /** The model `execute` and `service` both select, once the input is read
      and the models are built. */
  predicate Selects(args: seq<string>, stdin: string, fs: FileSystem, engine: Engine, inputs: seq<(string, Value)>, m: Model)
    requires |args| >= 1
  {
    var p := ParseArgs(args, stdin);
    && p.mainDmnFile.Some?
    && Prepare(p, p.mainDmnFile.value, fs, engine).Success?
    && Prepare(p, p.mainDmnFile.value, fs, engine).value.0 == inputs
    && FindMainModel(Prepare(p, p.mainDmnFile.value, fs, engine).value.1, p.mainDmnFile.value, p.modelName) == Some(m)
  }

  /** A model with errors stops `execute`, whatever the options: it prints
      the text of every message, whatever its severity, with exit status 1. */
  lemma ExecuteModelErrors(args: seq<string>, stdin: string, fs: FileSystem, engine: Engine,
                           inputs: seq<(string, Value)>, m: Model)
    requires |args| >= 1 && Selects(args, stdin, fs, engine, inputs, m) && m.hasErrors
    ensures Execute(args, stdin, fs, engine) == Printed(ErrorDoc(Texts(m.messages)), 1)
  {
  }

  /** The contrast on one command line naming a declared service: `execute`
      stops at the model's errors, while `service` does not check them and
      evaluates the model all the same. */
  lemma ModelErrorsStopOnlyExecute(args: seq<string>, stdin: string, fs: FileSystem, engine: Engine,
                                   inputs: seq<(string, Value)>, m: Model, name: string)
    requires |args| >= 1 && Selects(args, stdin, fs, engine, inputs, m) && m.hasErrors
    requires ParseArgs(args, stdin).serviceName == Some(name) && FindService(m, name).Success?
    ensures Execute(args, stdin, fs, engine) == Printed(ErrorDoc(Texts(m.messages)), 1)
    ensures ExecuteService(args, stdin, fs, engine) ==
      Printed(ResultDoc(OutputResult(engine.evaluate(m, inputs, ByService(name)), inputs)), 0)
  {
  }

  /** `execute` evaluates an error-free model at the entry point the options
      choose and prints the result document with exit status 0. */
  lemma ExecuteEvaluates(args: seq<string>, stdin: string, fs: FileSystem, engine: Engine,
                         inputs: seq<(string, Value)>, m: Model)
    requires |args| >= 1 && Selects(args, stdin, fs, engine, inputs, m) && !m.hasErrors
    ensures Execute(args, stdin, fs, engine) ==
      Printed(ResultDoc(OutputResult(engine.evaluate(m, inputs, ChooseEntry(ParseArgs(args, stdin))), inputs)), 0)
  {
  }

  /** `service` evaluates the selected model at a service it declares and
      prints the result document with exit status 0. */
  lemma ServiceEvaluates(args: seq<string>, stdin: string, fs: FileSystem, engine: Engine,
                         inputs: seq<(string, Value)>, m: Model, name: string)
    requires |args| >= 1 && Selects(args, stdin, fs, engine, inputs, m)
    requires ParseArgs(args, stdin).serviceName == Some(name) && FindService(m, name).Success?
    ensures ExecuteService(args, stdin, fs, engine) ==
      Printed(ResultDoc(OutputResult(engine.evaluate(m, inputs, ByService(name)), inputs)), 0)
  {
  }

  /** Bad input, a missing main file, an unlistable directory or a failed
      build stops `execute` and `service` without a document. */
  lemma PreparationFailureStops(args: seq<string>, stdin: string, fs: FileSystem, engine: Engine)
    requires |args| >= 1
    requires var p := ParseArgs(args, stdin);
      p.mainDmnFile.Some? && Prepare(p, p.mainDmnFile.value, fs, engine).Failure?
    ensures var p := ParseArgs(args, stdin);
      var stop := Prepare(p, p.mainDmnFile.value, fs, engine).error;
      && Execute(args, stdin, fs, engine) == Stopped(stop)
      && (p.serviceName.Some? ==> ExecuteService(args, stdin, fs, engine) == Stopped(stop))
  {
  }

  /** When no compiled model is the main one, `execute` and `service` print
      the error document `["Could not find main DMN model"]` with exit
      status 1. */
  lemma MainModelMissingReported(args: seq<string>, stdin: string, fs: FileSystem, engine: Engine)
    requires |args| >= 1
    requires var p := ParseArgs(args, stdin);
      && p.mainDmnFile.Some?
      && Prepare(p, p.mainDmnFile.value, fs, engine).Success?
      && FindMainModel(Prepare(p, p.mainDmnFile.value, fs, engine).value.1, p.mainDmnFile.value, p.modelName).None?
    ensures Execute(args, stdin, fs, engine) == Printed(ErrorDoc([MainModelMissing]), 1)
    ensures ParseArgs(args, stdin).serviceName.Some? ==>
      ExecuteService(args, stdin, fs, engine) == Printed(ErrorDoc([MainModelMissing]), 1)
  {
  }

  /** `info` never reads the input JSON: the reader plays no part in it. */
  lemma InfoIgnoresInput(args: seq<string>, stdin: string, fs: FileSystem, engine: Engine,
                         parse: string -> Option<seq<(string, Value)>>)
    requires |args| >= 1
    ensures ShowModelInfo(args, stdin, fs, engine) == ShowModelInfo(args, stdin, fs, engine.(parseJson := parse))
  {
  }

  /** The entry point `execute` evaluates, read off the command line: when the
      last `-s` value is non-empty, that service; otherwise, when the last
      `-d` value is non-empty, that decision; an empty last `-d` value
      evaluates every decision. */
  lemma CommandLineEntry(args: seq<string>, stdin: string)
    requires |args| >= 1
    ensures var ts := Tokens(args[1..]);
      var svc := LastValue(ts, IsServiceFlag);
      var dec := LastValue(ts, IsDecisionFlag);
      var e := ChooseEntry(ParseArgs(args, stdin));
      && (svc.Some? && svc.value != "" ==> e == ByService(svc.value))
      && (!(svc.Some? && svc.value != "") && dec.Some? && dec.value != "" ==> e == ByDecision(dec.value))
      && (!(svc.Some? && svc.value != "") && dec.Some? && dec.value == "" ==> e == AllDecisions)
  {
    ParseArgsEffects(args, stdin);
  }

  /** With no flag naming a service or a decision, `execute` evaluates the
      decision named by the third positional, or every decision. */
  lemma PositionalEntry(args: seq<string>, stdin: string)
    requires |args| >= 1
    requires var ts := Tokens(args[1..]);
      && LastValue(ts, IsServiceFlag).None? && LastValue(ts, IsDecisionFlag).None?
      && (|Words(ts)| >= 2 ==> Words(ts)[1] != "{}" && Words(ts)[1] != "-")
    ensures var ws := Words(Tokens(args[1..]));
      ChooseEntry(ParseArgs(args, stdin)) ==
        if |ws| < 3 || ws[2] == "" then AllDecisions else ByDecision(ws[2])
  {
    var ts := Tokens(args[1..]);
    ParseArgsEffects(args, stdin);
    ParseArgsPositionals(args, stdin);
    NoServiceWordsAll(ts);
  }

  /** An evaluation that reports errors is still printed as a result document,
      with `success` false, and the process exits with status 0. */
  lemma FailedEvaluationExitsZero(args: seq<string>, stdin: string, fs: FileSystem, engine: Engine,
                                  inputs: seq<(string, Value)>, m: Model)
    requires |args| >= 1 && Selects(args, stdin, fs, engine, inputs, m) && !m.hasErrors
    requires engine.evaluate(m, inputs, ChooseEntry(ParseArgs(args, stdin))).hasErrors
    ensures Execute(args, stdin, fs, engine).Printed?
    ensures Execute(args, stdin, fs, engine).exitCode == 0
    ensures Execute(args, stdin, fs, engine).doc.ResultDoc?
    ensures !Execute(args, stdin, fs, engine).doc.result.success
  {
  }

  /** `execute` reads its input before looking at the file system, so bad
      input hides a missing file; `info` reads no input and reports the
      missing file. */
  lemma InputReadBeforeFiles(args: seq<string>, stdin: string, fs: FileSystem, engine: Engine)
    requires |args| >= 1
    requires ParseArgs(args, stdin).mainDmnFile.Some? && PathText(ParseArgs(args, stdin).mainDmnFile.value) !in fs.nodes
    requires engine.parseJson(ParseArgs(args, stdin).inputJson).None?
    ensures Execute(args, stdin, fs, engine) == Stopped(BadInputJson)
    ensures ShowModelInfo(args, stdin, fs, engine) == Stopped(PathError(FileNotFound(ParseArgs(args, stdin).mainDmnFile.value)))
  {
  }

  /** A missing main file prints no document at all: it is an exception. */
  lemma MissingMainFilePrintsNothing(args: seq<string>, stdin: string, fs: FileSystem, engine: Engine)
    requires |args| >= 1
    requires ParseArgs(args, stdin).mainDmnFile.Some? && PathText(ParseArgs(args, stdin).mainDmnFile.value) !in fs.nodes
    ensures !Execute(args, stdin, fs, engine).Printed?
    ensures !ExecuteService(args, stdin, fs, engine).Printed?
    ensures !ShowModelInfo(args, stdin, fs, engine).Printed?
  {
  }

  /** `service` with an unknown service prints the not-found error, which
      lists every declared service, and exits with status 1. */
  lemma UnknownServiceReported(args: seq<string>, stdin: string, fs: FileSystem, engine: Engine,
                               inputs: seq<(string, Value)>, m: Model, name: string)
    requires |args| >= 1 && Selects(args, stdin, fs, engine, inputs, m)
    requires ParseArgs(args, stdin).serviceName == Some(name)
    requires forall i :: 0 <= i < |m.services| ==> m.services[i].name != name
    ensures ExecuteService(args, stdin, fs, engine) == Printed(ErrorDoc([NotFoundMessage(m, name)]), 1)
    ensures forall i :: 0 <= i < |m.services| ==> Contains(NotFoundMessage(m, name), m.services[i].name)
  {
    NotFoundListsEveryService(m, name);
  }
}

=== FILE: dmn.dfy ===
/** The engine-side data the executor reads: compiled models with their
    declarations and messages, and evaluation results. The engine that
    produces them is not part of this model; these are its observable shapes. */
module Dmn {
  import opened Wrappers
  import opened Values
  import Linked

  datatype Severity = Error | Warn | Info

  /** A validation or evaluation message: severity, text, and the name of its
      message type. */
  datatype Message = Message(severity: Severity, text: string, messageType: string)

  /** An input, a decision or an item definition: its name and the name of its
      declared type, absent when the engine has no type for it. */
  datatype TypedNode = TypedNode(name: string, typeName: Option<string>)

  /** A decision service and the element references (hrefs) of its four
      lists; a list the engine does not provide is absent. */
  datatype ServiceDecl = ServiceDecl(
    name: string,
    inputData: Option<seq<string>>,
    inputDecisions: Option<seq<string>>,
    outputDecisions: Option<seq<string>>,
    encapsulatedDecisions: Option<seq<string>>)

  /** A compiled model as the runtime lists it. */
  datatype Model = Model(
    name: string,
    namespace: string,
    inputs: seq<TypedNode>,
    decisions: seq<TypedNode>,
    services: seq<ServiceDecl>,
    itemDefinitions: seq<TypedNode>,
    knowledgeModels: seq<string>,
    messages: seq<Message>,
    hasErrors: bool)

  /** The evaluation status of one decision. */
  datatype Status = NotEvaluated | Evaluating | Succeeded | Skipped | Failed

  /** The status as its enum constant prints. */
  function StatusName(s: Status): (r: string)
    ensures r in {"NOT_EVALUATED", "EVALUATING", "SUCCEEDED", "SKIPPED", "FAILED"}
  {
    match s
    case NotEvaluated => "NOT_EVALUATED"
    case Evaluating => "EVALUATING"
    case Succeeded => "SUCCEEDED"
    case Skipped => "SKIPPED"
    case Failed => "FAILED"
  }

  /** Distinct statuses print distinctly. */
  lemma StatusNameInjective(s: Status, t: Status)
    requires StatusName(s) == StatusName(t)
    ensures s == t
  {
  }

  datatype DecisionResult = DecisionResult(name: string, result: Value, status: Status)

  /** The outcome of one evaluation: per-decision results, messages, the
      final context (inputs and decision outputs, in iteration order), and
      the engine's error flag. */
  datatype EvalResult = EvalResult(
    decisionResults: seq<DecisionResult>,
    messages: seq<Message>,
    context: seq<(string, Value)>,
    hasErrors: bool)

  /** The messages of ERROR severity, in their original order. */
  function ErrorMessages(ms: seq<Message>): (r: seq<Message>)
    ensures |r| <= |ms|
    ensures forall m :: m in r <==> m in ms && m.severity == Error
  {
    if ms == [] then []
    else
      var n := |ms| - 1;
      ErrorMessages(ms[..n]) + (if ms[n].severity == Error then [ms[n]] else [])
  }

  /** Filtering distributes over concatenation, so the kept messages stay in
      the order the engine reported them. */
  lemma {:induction false} ErrorMessagesSplit(ms: seq<Message>, ns: seq<Message>)
    ensures ErrorMessages(ms + ns) == ErrorMessages(ms) + ErrorMessages(ns)
    decreases |ns|
  {
    if ns == [] {
      assert ms + ns == ms;
    } else {
      var n := |ns| - 1;
      var all := ms + ns;
      Linked.ConcatFront(ms, ns);
      ErrorMessagesSplit(ms, ns[..n]);
      var t := if ns[n].severity == Error then [ns[n]] else [];
      assert ErrorMessages(all) == ErrorMessages(ms + ns[..n]) + t;
      assert ErrorMessages(ns) == ErrorMessages(ns[..n]) + t;
    }
  }
}

=== FILE: info.dfy ===
/** The document printed by the `info` command (`showModelInfo`), as a
    datatype. Optional keys are `Option`s: `None` means the key is absent. */
module Info {
  import opened Wrappers
  import opened Strings
  import opened Dmn

  /** The name an element reference points at: the text after the first `#`,
      or the whole reference when it has none. */
  function HrefName(href: string): (r: string)
    ensures '#' !in href ==> r == href
    ensures '#' in href ==>
      var k := |href| - |r| - 1;
      0 <= k && href == href[..k] + "#" + r && '#' !in href[..k]
  {
    if '#' in href then
      var k := IndexOf(href, '#');
      assert href == href[..k] + "#" + href[k + 1..];
      href[k + 1..]
    else href
  }

  /** Building a reference from a `#`-free prefix and a name, and extracting
      the name again, gives back the name, even one containing `#`. */
  lemma HrefNameRoundTrip(prefix: string, name: string)
    requires '#' !in prefix
    ensures HrefName(prefix + "#" + name) == name
  {
    var href := prefix + "#" + name;
    assert href[|prefix|] == '#';
    assert href[..|prefix|] == prefix;
    assert href[|prefix| + 1..] == name;
  }

  /** Every reference is reduced the same way. */
  function RefNames(hrefs: Option<seq<string>>): (r: Option<seq<string>>)
    ensures r.Some? <==> hrefs.Some?
    ensures r.Some? ==> |r.value| == |hrefs.value| && forall i :: 0 <= i < |r.value| ==> r.value[i] == HrefName(hrefs.value[i])
  {
    match hrefs
    case None => None
    case Some(hs) => Some(seq(|hs|, i requires 0 <= i < |hs| => HrefName(hs[i])))
  }

  /** An input or a decision: its name and its type name, "Any" when untyped. */
  datatype NodeInfo = NodeInfo(name: string, typeName: string)

  /** A decision service: each of its four lists is present exactly when the
      engine provides it, even if empty. */
  datatype ServiceInfo = ServiceInfo(
    name: string,
    inputData: Option<seq<string>>,
    inputDecisions: Option<seq<string>>,
    outputDecisions: Option<seq<string>>,
    encapsulatedDecisions: Option<seq<string>>)

  /** An item definition: its type key is present only when it has a type. */
  datatype ItemInfo = ItemInfo(name: string, typeName: Option<string>)

  datatype ModelInfo = ModelInfo(
    name: string,
    namespace: string,
    inputs: seq<NodeInfo>,
    decisions: seq<NodeInfo>,
    decisionServices: Option<seq<ServiceInfo>>,
    itemDefinitions: Option<seq<ItemInfo>>,
    businessKnowledgeModels: Option<seq<string>>,
    errors: Option<seq<string>>)

  datatype InfoPayload = InfoPayload(modelsLoaded: nat, models: seq<ModelInfo>)

  function NodeInfoOf(n: TypedNode): (r: NodeInfo)
    ensures r.name == n.name
    ensures n.typeName.Some? ==> r.typeName == n.typeName.value
    ensures n.typeName.None? ==> r.typeName == "Any"
  {
    NodeInfo(n.name, if n.typeName.Some? then n.typeName.value else "Any")
  }

  function ServiceInfoOf(s: ServiceDecl): (r: ServiceInfo)
    ensures r.name == s.name
    ensures r.inputData == RefNames(s.inputData) && r.inputDecisions == RefNames(s.inputDecisions)
    ensures r.outputDecisions == RefNames(s.outputDecisions) && r.encapsulatedDecisions == RefNames(s.encapsulatedDecisions)
  {
    ServiceInfo(s.name, RefNames(s.inputData), RefNames(s.inputDecisions), RefNames(s.outputDecisions), RefNames(s.encapsulatedDecisions))
  }

  /** A list under an optional key: absent when empty. */
  function NonEmpty<T>(xs: seq<T>): (r: Option<seq<T>>)
    ensures r.Some? <==> xs != []
    ensures r.Some? ==> r.value == xs
  {
    if xs == [] then None else Some(xs)
  }

  function Texts(ms: seq<Message>): (r: seq<string>)
    ensures |r| == |ms| && forall i :: 0 <= i < |ms| ==> r[i] == ms[i].text
  {
    seq(|ms|, i requires 0 <= i < |ms| => ms[i].text)
  }

  /** One model's entry in the info document. */
  function ModelInfoOf(m: Model): (r: ModelInfo)
    ensures r.name == m.name && r.namespace == m.namespace
    ensures |r.inputs| == |m.inputs| && forall i :: 0 <= i < |m.inputs| ==> r.inputs[i] == NodeInfoOf(m.inputs[i])
    ensures |r.decisions| == |m.decisions| && forall i :: 0 <= i < |m.decisions| ==> r.decisions[i] == NodeInfoOf(m.decisions[i])
    ensures r.decisionServices.Some? <==> m.services != []
    ensures r.decisionServices.Some? ==> (|r.decisionServices.value| == |m.services| &&
      forall i :: 0 <= i < |m.services| ==> r.decisionServices.value[i] == ServiceInfoOf(m.services[i]))
    ensures r.itemDefinitions.Some? <==> m.itemDefinitions != []
    ensures r.itemDefinitions.Some? ==> (|r.itemDefinitions.value| == |m.itemDefinitions| &&
      forall i :: 0 <= i < |m.itemDefinitions| ==>
        r.itemDefinitions.value[i] == ItemInfo(m.itemDefinitions[i].name, m.itemDefinitions[i].typeName))
    ensures r.businessKnowledgeModels.Some? <==> m.knowledgeModels != []
    ensures r.businessKnowledgeModels.Some? ==> r.businessKnowledgeModels.value == m.knowledgeModels
    ensures r.errors.Some? <==> m.hasErrors
    ensures r.errors.Some? ==> r.errors.value == Texts(ErrorMessages(m.messages))
  {
    ModelInfo(
      m.name,
      m.namespace,
      seq(|m.inputs|, i requires 0 <= i < |m.inputs| => NodeInfoOf(m.inputs[i])),
      seq(|m.decisions|, i requires 0 <= i < |m.decisions| => NodeInfoOf(m.decisions[i])),
      NonEmpty(seq(|m.services|, i requires 0 <= i < |m.services| => ServiceInfoOf(m.services[i]))),
      NonEmpty(seq(|m.itemDefinitions|, i requires 0 <= i < |m.itemDefinitions| =>
        ItemInfo(m.itemDefinitions[i].name, m.itemDefinitions[i].typeName))),
      NonEmpty(m.knowledgeModels),
      if m.hasErrors then Some(Texts(ErrorMessages(m.messages))) else None)
  }

  /** The `info` document: one entry per compiled model, in the runtime's
      order, and their count. */
  function ShowInfo(models: seq<Model>): (r: InfoPayload)
    ensures r.modelsLoaded == |r.models| == |models|
    ensures forall i :: 0 <= i < |models| ==> r.models[i] == ModelInfoOf(models[i])
  {
    InfoPayload(|models|, seq(|models|, i requires 0 <= i < |models| => ModelInfoOf(models[i])))
  }

  /** Only the first `#` separates: a reference with two keeps the second. */
  lemma SecondHashKept()
    ensures HrefName("a.dmn#b#c") == "b#c"
  {
    HrefNameRoundTrip("a.dmn", "b#c");
    assert "a.dmn" + "#" + "b#c" == "a.dmn#b#c";
  }

  /** A service whose lists are provided but empty still shows them, while a
      model with no services has no `decisionServices` key at all. */
  lemma EmptyListsDiffer(m: Model, s: ServiceDecl)
    requires s.inputData == Some([]) && m.services == []
    ensures ServiceInfoOf(s).inputData == Some([])
    ensures ModelInfoOf(m).decisionServices == None
  {
  }
}

=== FILE: linked.dfy ===
/** Insertion-ordered collections as sequences: a LinkedHashMap is a sequence of
    key/value pairs, a LinkedHashSet a sequence of elements. */
module Linked {
  import opened Wrappers

  predicate NoDuplicates<T(==,!new)>(s: seq<T>) {
    forall i, j :: 0 <= i < j < |s| ==> s[i] != s[j]
  }

  /** Dropping the last element of a concatenation whose second part is not empty. */
  lemma ConcatFront<T>(a: seq<T>, b: seq<T>)
    requires b != []
    ensures (a + b)[..|a + b| - 1] == a + b[..|b| - 1]
    ensures (a + b)[|a + b| - 1] == b[|b| - 1]
  {
  }

  /** A non-empty sequence is its front followed by its last element. */
  lemma FrontLast<T>(s: seq<T>)
    requires s != []
    ensures s == s[..|s| - 1] + [s[|s| - 1]]
  {
  }

  lemma NoDuplicatesSnoc<T(!new)>(s: seq<T>, x: T)
    requires NoDuplicates(s) && x !in s
    ensures NoDuplicates(s + [x])
  {
  }

  /** The position of the first occurrence of `x` in `s`, or -1. */
  function Position<T(==,!new)>(s: seq<T>, x: T): (r: int)
    ensures -1 <= r < |s|
    ensures r == -1 <==> x !in s
    ensures 0 <= r ==> s[r] == x && x !in s[..r]
  {
    if s == [] then -1
    else if s[0] == x then 0
    else
      var j := Position(s[1..], x);
      if j < 0 then -1 else j + 1
  }

  /** Any position holding `x` with no earlier `x` is the position. */
  lemma PositionUnique<T(!new)>(s: seq<T>, x: T, i: int)
    requires 0 <= i < |s| && s[i] == x && x !in s[..i]
    ensures Position(s, x) == i
  {
  }

  /** Appending never moves the first occurrence of an element already present. */
  lemma PositionExtend<T(!new)>(s: seq<T>, t: seq<T>)
    ensures forall x :: x in s ==> Position(s + t, x) == Position(s, x)
  {
    forall x | x in s
      ensures Position(s + t, x) == Position(s, x)
    {
      var p := Position(s, x);
      assert (s + t)[..p] == s[..p];
      PositionUnique(s + t, x, p);
    }
  }

  function Keys<K, V>(m: seq<(K, V)>): (ks: seq<K>)
    ensures |ks| == |m|
  {
    seq(|m|, i requires 0 <= i < |m| => m[i].0)
  }

  lemma KeysFirst<K, V>(m: seq<(K, V)>)
    requires m != []
    ensures Keys(m) == [m[0].0] + Keys(m[1..])
  {
  }

  /** `m.get(k)`: the value of the entry with key `k` (the first one, should
      a sequence hold two), with absence made explicit. */
  function Get<K(==,!new), V>(m: seq<(K, V)>, k: K): Option<V> {
    if m == [] then None
    else if m[0].0 == k then Some(m[0].1)
    else Get(m[1..], k)
  }

  /** In a map with distinct keys, an entry is what its key looks up. */
  lemma {:induction false} GetEntry<K(!new), V>(m: seq<(K, V)>, k: K, v: V)
    requires NoDuplicates(Keys(m)) && (k, v) in m
    ensures Get(m, k) == Some(v)
  {
    KeysFirst(m);
    if m[0] != (k, v) {
      assert (k, v) in m[1..];
      var j :| 0 <= j < |m[1..]| && m[1..][j] == (k, v);
      NoDuplicatesCons(m[0].0, Keys(m[1..]));
      assert Keys(m[1..])[j] == k;
      GetEntry(m[1..], k, v);
    }
  }

  /** A key that is not in the map looks up nothing. */
  lemma {:induction false} GetAbsent<K(!new), V>(m: seq<(K, V)>, k: K)
    requires k !in Keys(m)
    ensures Get(m, k) == None
  {
    if m != [] {
      KeysFirst(m);
      GetAbsent(m[1..], k);
    }
  }

  /** `m.put(k, v)`: a new key is appended; a key already present keeps its
      position and takes the new value. */
  function Put<K(==,!new), V>(m: seq<(K, V)>, k: K, v: V): (r: seq<(K, V)>)
    ensures Get(r, k) == Some(v)
    ensures k in Keys(m) ==> Keys(r) == Keys(m)
    ensures k !in Keys(m) ==> Keys(r) == Keys(m) + [k]
    ensures NoDuplicates(Keys(m)) ==> NoDuplicates(Keys(r))
    ensures forall e :: e in r ==> e in m || e == (k, v)
  {
    if m == [] then [(k, v)]
    else if m[0].0 == k then
      KeysFirst(m);
      KeysFirst([(k, v)] + m[1..]);
      assert ([(k, v)] + m[1..])[1..] == m[1..];
      [(k, v)] + m[1..]
    else
      var t := Put(m[1..], k, v);
      KeysFirst(m);
      KeysFirst([m[0]] + t);
      assert ([m[0]] + t)[1..] == t;
      assert NoDuplicates(Keys(m)) ==> NoDuplicates(Keys(m[1..])) && m[0].0 !in Keys(m[1..]) by {
        if NoDuplicates(Keys(m)) {
          NoDuplicatesCons(m[0].0, Keys(m[1..]));
        }
      }
      assert NoDuplicates(Keys(m)) ==> NoDuplicates(Keys([m[0]] + t)) by {
        if NoDuplicates(Keys(m)) {
          NoDuplicatesConsBack(m[0].0, Keys(t));
        }
      }
      [m[0]] + t
  }

  lemma NoDuplicatesCons<T(!new)>(x: T, s: seq<T>)
    requires NoDuplicates([x] + s)
    ensures NoDuplicates(s) && x !in s
  {
    var t := [x] + s;
    forall i, j | 0 <= i < j < |s|
      ensures s[i] != s[j]
    {
      assert t[i + 1] == s[i] && t[j + 1] == s[j];
    }
    forall i | 0 <= i < |s|
      ensures s[i] != x
    {
      assert t[i + 1] == s[i] && t[0] == x;
    }
  }

  lemma NoDuplicatesConsBack<T(!new)>(x: T, s: seq<T>)
    requires NoDuplicates(s) && x !in s
    ensures NoDuplicates([x] + s)
  {
  }

  /** A put leaves every other key's lookup as it was. */
  lemma {:induction false} PutKeepsOthers<K(!new), V>(m: seq<(K, V)>, k: K, v: V, k': K)
    requires k' != k
    ensures Get(Put(m, k, v), k') == Get(m, k')
  {
    if m != [] && m[0].0 != k && m[0].0 != k' {
      var t := Put(m[1..], k, v);
      assert ([m[0]] + t)[1..] == t;
      PutKeepsOthers(m[1..], k, v, k');
    } else if m != [] && m[0].0 == k {
      assert ([(k, v)] + m[1..])[1..] == m[1..];
    }
  }

  lemma KeysConcat<K, V>(a: seq<(K, V)>, b: seq<(K, V)>)
    ensures Keys(a + b) == Keys(a) + Keys(b)
  {
  }

  lemma KeysLast<K, V>(m: seq<(K, V)>)
    requires m != []
    ensures Keys(m) == Keys(m[..|m| - 1]) + [m[|m| - 1].0]
  {
  }

  lemma NoDuplicatesSnocInverse<T(!new)>(s: seq<T>, x: T)
    requires NoDuplicates(s + [x])
    ensures NoDuplicates(s) && x !in s
  {
    var t := s + [x];
    forall i, j | 0 <= i < j < |s|
      ensures s[i] != s[j]
    {
      assert t[i] == s[i] && t[j] == s[j];
    }
    forall i | 0 <= i < |s|
      ensures s[i] != x
    {
      assert t[i] == s[i] && t[|s|] == x;
    }
  }

  lemma {:induction false} PutFresh<K(!new), V>(m: seq<(K, V)>, k: K, v: V)
    requires k !in Keys(m)
    ensures Put(m, k, v) == m + [(k, v)]
  {
    if m != [] {
      KeysFirst(m);
      PutFresh(m[1..], k, v);
      assert [m[0]] + (m[1..] + [(k, v)]) == m + [(k, v)];
    }
  }

  /** The puts of `kvs`, one after another, into `m`. */
  function PutAll<K(==,!new), V>(m: seq<(K, V)>, kvs: seq<(K, V)>): (r: seq<(K, V)>)
    ensures NoDuplicates(Keys(m)) ==> NoDuplicates(Keys(r))
    ensures forall e :: e in r ==> e in m || e in kvs
  {
    if kvs == [] then m
    else
      var n := |kvs| - 1;
      Put(PutAll(m, kvs[..n]), kvs[n].0, kvs[n].1)
  }

  lemma PutAllSnoc<K(!new), V>(m: seq<(K, V)>, kvs: seq<(K, V)>, p: (K, V))
    ensures PutAll(m, kvs + [p]) == Put(PutAll(m, kvs), p.0, p.1)
  {
    assert (kvs + [p])[..|kvs|] == kvs;
  }

  /** The keys after a run of puts are the old keys and the keys put. */
  lemma {:induction false} PutAllKeys<K(!new), V>(m: seq<(K, V)>, kvs: seq<(K, V)>)
    ensures forall k :: k in Keys(PutAll(m, kvs)) <==> k in Keys(m) || k in Keys(kvs)
  {
    if kvs != [] {
      var n := |kvs| - 1;
      PutAllKeys(m, kvs[..n]);
      assert Keys(kvs) == Keys(kvs[..n]) + [kvs[n].0];
    }
  }

  /** A key that is never put keeps what it had. */
  lemma {:induction false} PutAllUntouched<K(!new), V>(m: seq<(K, V)>, kvs: seq<(K, V)>, k: K)
    requires k !in Keys(kvs)
    ensures Get(PutAll(m, kvs), k) == Get(m, k)
  {
    if kvs != [] {
      var n := |kvs| - 1;
      KeysLast(kvs);
      PutAllLast(m, kvs);
      PutAllUntouched(m, kvs[..n], k);
      PutKeepsOthers(PutAll(m, kvs[..n]), kvs[n].0, kvs[n].1, k);
    }
  }

  lemma PutAllLast<K(!new), V>(m: seq<(K, V)>, kvs: seq<(K, V)>)
    requires kvs != []
    ensures PutAll(m, kvs) == Put(PutAll(m, kvs[..|kvs| - 1]), kvs[|kvs| - 1].0, kvs[|kvs| - 1].1)
  {
  }

  /** After a run of puts, a key holds the value of its last put. */
  lemma {:induction false} PutAllLastWins<K(!new), V>(m: seq<(K, V)>, kvs: seq<(K, V)>, i: int)
    requires 0 <= i < |kvs|
    requires forall j :: i < j < |kvs| ==> kvs[j].0 != kvs[i].0
    ensures Get(PutAll(m, kvs), kvs[i].0) == Some(kvs[i].1)
  {
    var n := |kvs| - 1;
    var k := kvs[i].0;
    var front := kvs[..n];
    var p := PutAll(m, front);
    assert PutAll(m, kvs) == Put(p, kvs[n].0, kvs[n].1);
    if i == n {
    } else {
      assert front[i] == kvs[i];
      PutAllLastWins(m, front, i);
      PutAllKeys(m, front);
      assert Keys(front)[i] == k;
      assert k in Keys(p);
      PutKeepsOthers(p, kvs[n].0, kvs[n].1, k);
    }
  }

  /** Putting keys that are all new and distinct appends them in order. */
  lemma {:induction false} PutAllFresh<K(!new), V>(m: seq<(K, V)>, kvs: seq<(K, V)>)
    requires NoDuplicates(Keys(m + kvs))
    ensures PutAll(m, kvs) == m + kvs
  {
    if kvs != [] {
      var front := kvs[..|kvs| - 1];
      FreshFront(m, kvs);
      PutAllFresh(m, front);
      PutAllFreshStep(m, kvs);
    }
  }

  lemma FreshFront<K(!new), V>(m: seq<(K, V)>, kvs: seq<(K, V)>)
    requires kvs != [] && NoDuplicates(Keys(m + kvs))
    ensures NoDuplicates(Keys(m + kvs[..|kvs| - 1]))
    ensures kvs[|kvs| - 1].0 !in Keys(m + kvs[..|kvs| - 1])
  {
    ConcatFront(m, kvs);
    KeysLast(m + kvs);
    NoDuplicatesSnocInverse(Keys(m + kvs[..|kvs| - 1]), kvs[|kvs| - 1].0);
  }

  lemma PutAllFreshStep<K(!new), V>(m: seq<(K, V)>, kvs: seq<(K, V)>)
    requires kvs != []
    requires kvs[|kvs| - 1].0 !in Keys(m + kvs[..|kvs| - 1])
    requires PutAll(m, kvs[..|kvs| - 1]) == m + kvs[..|kvs| - 1]
    ensures PutAll(m, kvs) == m + kvs
  {
    var n := |kvs| - 1;
    var front := kvs[..n];
    var p := kvs[n];
    PutAllLast(m, kvs);
    PutFresh(m + front, p.0, p.1);
    FrontLast(kvs);
    calc {
      PutAll(m, kvs);
      Put(PutAll(m, front), p.0, p.1);
      Put(m + front, p.0, p.1);
      (m + front) + [p];
      m + (front + [p]);
    }
  }

  /** Putting pairs with distinct keys into an empty map yields them in order. */
  lemma PutAllDistinct<K(!new), V>(kvs: seq<(K, V)>)
    requires NoDuplicates(Keys(kvs))
    ensures PutAll([], kvs) == kvs
  {
    assert [] + kvs == kvs;
    PutAllFresh([], kvs);
  }

  /** Each element's contribution, concatenated in order (a stream's
      `flatMap`, or a `map` followed by a `filter`). */
  function FlatMap<A, B>(xs: seq<A>, f: A -> seq<B>): seq<B> {
    if xs == [] then []
    else FlatMap(xs[..|xs| - 1], f) + f(xs[|xs| - 1])
  }

  lemma FlatMapLast<A, B>(xs: seq<A>, f: A -> seq<B>)
    requires xs != []
    ensures FlatMap(xs, f) == FlatMap(xs[..|xs| - 1], f) + f(xs[|xs| - 1])
  {
  }

  lemma {:induction false} FlatMapSplit<A, B>(xs: seq<A>, ys: seq<A>, f: A -> seq<B>)
    ensures FlatMap(xs + ys, f) == FlatMap(xs, f) + FlatMap(ys, f)
    decreases |ys|
  {
    if ys == [] {
      assert xs + ys == xs;
    } else {
      var n := |ys| - 1;
      ConcatFront(xs, ys);
      FlatMapSplit(xs, ys[..n], f);
      FlatMapLast(xs + ys, f);
      FlatMapLast(ys, f);
    }
  }

  /** `y` is among the contributions of the `i`-th element. */
  predicate ContributedAt<A, B(==)>(xs: seq<A>, f: A -> seq<B>, i: int, y: B) {
    0 <= i < |xs| && y in f(xs[i])
  }

  lemma {:induction false} FlatMapMembers<A, B>(xs: seq<A>, f: A -> seq<B>)
    ensures forall y :: y in FlatMap(xs, f) <==> exists i :: ContributedAt(xs, f, i, y)
  {
    if xs != [] {
      var n := |xs| - 1;
      var front := xs[..n];
      FlatMapMembers(front, f);
      FlatMapLast(xs, f);
      forall y
        ensures y in FlatMap(xs, f) <==> exists i :: ContributedAt(xs, f, i, y)
      {
        if y in FlatMap(front, f) {
          var i :| ContributedAt(front, f, i, y);
          assert front[i] == xs[i];
          assert ContributedAt(xs, f, i, y);
        } else if y in f(xs[n]) {
          assert ContributedAt(xs, f, n, y);
        }
        if exists i :: ContributedAt(xs, f, i, y) {
          var i :| ContributedAt(xs, f, i, y);
          if i < n {
            assert front[i] == xs[i];
            assert ContributedAt(front, f, i, y);
          }
        }
      }
    }
  }

  /** Putting two batches is putting their concatenation. */
  lemma {:induction false} PutAllConcat<K(!new), V>(m: seq<(K, V)>, a: seq<(K, V)>, b: seq<(K, V)>)
    ensures PutAll(m, a + b) == PutAll(PutAll(m, a), b)
    decreases |b|
  {
    if b == [] {
      assert a + b == a;
    } else {
      var n := |b| - 1;
      ConcatFront(a, b);
      PutAllConcat(m, a, b[..n]);
    }
  }

  /** A key that no element's contribution carries is not a key of the
      flat-map. */
  lemma FlatMapKeyAbsent<A, K(!new), V>(xs: seq<A>, f: A -> seq<(K, V)>, k: K)
    requires forall j :: 0 <= j < |xs| ==> k !in Keys(f(xs[j]))
    ensures k !in Keys(FlatMap(xs, f))
  {
    var all := FlatMap(xs, f);
    FlatMapMembers(xs, f);
    forall q | 0 <= q < |all|
      ensures all[q].0 != k
    {
      assert all[q] in all;
      var j :| ContributedAt(xs, f, j, all[q]);
      var c := f(xs[j]);
      var r :| 0 <= r < |c| && c[r] == all[q];
      assert Keys(c)[r] == all[q].0;
    }
  }

  /** Putting the flat-map of contributions into an empty map: the key of an
      element contributing a single pair, when no later element contributes
      that key, holds that pair's value. */
  lemma FlatMapLastWins<A, K(!new), V>(xs: seq<A>, f: A -> seq<(K, V)>, i: int, k: K, v: V)
    requires 0 <= i < |xs| && f(xs[i]) == [(k, v)]
    requires forall j :: i < j < |xs| ==> k !in Keys(f(xs[j]))
    ensures Get(PutAll([], FlatMap(xs, f)), k) == Some(v)
  {
    var a := FlatMap(xs[..i + 1], f);
    var b := FlatMap(xs[i + 1..], f);
    FlatMapCut(xs, f, i);
    FlatMapPrefixEnds(xs, f, i);
    PutAllConcat([], a, b);
    PutAllSnoc([], FlatMap(xs[..i], f), (k, v));
    FlatMapSuffixKeyAbsent(xs, f, i, k);
    PutAllUntouched(PutAll([], a), b, k);
  }

  lemma FlatMapCut<A, B>(xs: seq<A>, f: A -> seq<B>, i: int)
    requires 0 <= i < |xs|
    ensures FlatMap(xs, f) == FlatMap(xs[..i + 1], f) + FlatMap(xs[i + 1..], f)
  {
    assert xs == xs[..i + 1] + xs[i + 1..];
    FlatMapSplit(xs[..i + 1], xs[i + 1..], f);
  }

  lemma FlatMapPrefixEnds<A, B>(xs: seq<A>, f: A -> seq<B>, i: int)
    requires 0 <= i < |xs|
    ensures FlatMap(xs[..i + 1], f) == FlatMap(xs[..i], f) + f(xs[i])
  {
    var a := xs[..i + 1];
    FlatMapLast(a, f);
    assert a[..i] == xs[..i] && a[i] == xs[i];
  }

  lemma FlatMapSuffixKeyAbsent<A, K(!new), V>(xs: seq<A>, f: A -> seq<(K, V)>, i: int, k: K)
    requires 0 <= i < |xs|
    requires forall j :: i < j < |xs| ==> k !in Keys(f(xs[j]))
    ensures k !in Keys(FlatMap(xs[i + 1..], f))
  {
    var b := xs[i + 1..];
    forall j | 0 <= j < |b|
      ensures k !in Keys(f(b[j]))
    {
      assert b[j] == xs[i + 1 + j];
    }
    FlatMapKeyAbsent(b, f, k);
  }

  /** When each element contributes at most one pair, keyed by a key the
      elements do not share, the flat-map has distinct keys. */
  lemma {:induction false} FlatMapDistinctKeys<A, K(!new), V>(xs: seq<A>, f: A -> seq<(K, V)>, key: A -> K)
    requires forall i :: 0 <= i < |xs| ==> Keys(f(xs[i])) == [] || Keys(f(xs[i])) == [key(xs[i])]
    requires forall i, j :: 0 <= i < j < |xs| ==> key(xs[i]) != key(xs[j])
    ensures NoDuplicates(Keys(FlatMap(xs, f)))
  {
    if xs != [] {
      var n := |xs| - 1;
      var front := xs[..n];
      var p := FlatMap(front, f);
      var x := xs[n];
      assert forall i :: 0 <= i < n ==> front[i] == xs[i];
      FlatMapDistinctKeys(front, f, key);
      FlatMapLast(xs, f);
      KeysConcat(p, f(x));
      if Keys(f(x)) != [] {
        forall j | 0 <= j < |front|
          ensures key(x) !in Keys(f(front[j]))
        {
          assert key(front[j]) != key(x);
        }
        FlatMapKeyAbsent(front, f, key(x));
        NoDuplicatesSnoc(Keys(p), key(x));
      }
    }
  }

  /** A key no element contributes is absent from the resulting map. */
  lemma FlatMapAbsent<A, K(!new), V>(xs: seq<A>, f: A -> seq<(K, V)>, k: K)
    requires forall j :: 0 <= j < |xs| ==> k !in Keys(f(xs[j]))
    ensures Get(PutAll([], FlatMap(xs, f)), k) == None
  {
    FlatMapKeyAbsent(xs, f, k);
    PutAllUntouched([], FlatMap(xs, f), k);
  }

  /** `s.add(x)` on a LinkedHashSet: appended unless already present. */
  function Add<T(==,!new)>(s: seq<T>, x: T): seq<T> {
    if x in s then s else s + [x]
  }

  /** The adds of `xs`, one after another, into `s`. */
  function AddAll<T(==,!new)>(s: seq<T>, xs: seq<T>): (r: seq<T>)
    ensures NoDuplicates(s) ==> NoDuplicates(r)
    ensures forall x :: x in r <==> x in s || x in xs
    ensures |s| <= |r| && r[..|s|] == s
  {
    if xs == [] then s
    else
      var n := |xs| - 1;
      var front := AddAll(s, xs[..n]);
      assert xs == xs[..n] + [xs[n]];
      Add(front, xs[n])
  }

  lemma AddAllLast<T(!new)>(s: seq<T>, xs: seq<T>)
    requires xs != []
    ensures AddAll(s, xs) == Add(AddAll(s, xs[..|xs| - 1]), xs[|xs| - 1])
  {
  }

  /** Adding elements in two batches is adding them all. */
  lemma {:induction false} AddAllSplit<T(!new)>(s: seq<T>, xs: seq<T>, ys: seq<T>)
    ensures AddAll(s, xs + ys) == AddAll(AddAll(s, xs), ys)
    decreases |ys|
  {
    if ys == [] {
      assert xs + ys == xs;
    } else {
      var n := |ys| - 1;
      var all := xs + ys;
      ConcatFront(xs, ys);
      AddAllSplit(s, xs, ys[..n]);
      AddAllLast(s, all);
      AddAllLast(AddAll(s, xs), ys);
    }
  }

  /** Adding elements already present changes nothing. */
  lemma {:induction false} AddAllPresent<T(!new)>(s: seq<T>, xs: seq<T>)
    requires forall x :: x in xs ==> x in s
    ensures AddAll(s, xs) == s
  {
    if xs != [] {
      var n := |xs| - 1;
      assert forall x :: x in xs[..n] ==> x in xs;
      AddAllPresent(s, xs[..n]);
    }
  }

  /** Elements that are already in the set, or added earlier, can be left out
      of a run of adds. */
  lemma AddAllSkipsPresent<T(!new)>(s: seq<T>, a: seq<T>, b: seq<T>, t: seq<T>)
    requires forall x :: x in b ==> x in s || x in a
    ensures AddAll(s, a + b + t) == AddAll(s, a + t)
  {
    AddAllSplit(s, a + b, t);
    AddAllSplit(s, a, b);
    AddAllPresent(AddAll(s, a), b);
    AddAllSplit(s, a, t);
  }

  /** A set seeded with one element and then given `xs` lists its elements in
      the order of their first occurrence in `[x] + xs`. */
  lemma AddAllSeededOrder<T(!new)>(x: T, xs: seq<T>)
    ensures forall i, j :: 0 <= i < j < |AddAll([x], xs)| ==>
              Position([x] + xs, AddAll([x], xs)[i]) < Position([x] + xs, AddAll([x], xs)[j])
  {
    AddAllSplit([], [x], xs);
    assert AddAll([], [x]) == [x] by {
      assert [x][..0] == [];
    }
    AddAllFirstOccurrenceOrder([x] + xs);
  }

  /** A LinkedHashSet filled from `xs` lists each element once, in the order
      of the element's first occurrence in `xs`. */
  lemma {:induction false} AddAllFirstOccurrenceOrder<T(!new)>(xs: seq<T>)
    ensures forall i, j :: 0 <= i < j < |AddAll([], xs)| ==>
              Position(xs, AddAll([], xs)[i]) < Position(xs, AddAll([], xs)[j])
  {
    if xs != [] {
      var n := |xs| - 1;
      var front := xs[..n];
      var x := xs[n];
      assert xs == front + [x];
      AddAllFirstOccurrenceOrder(front);
      PositionExtend(front, [x]);
      var r0 := AddAll([], front);
      var r := AddAll([], xs);
      assert r == Add(r0, x);
      forall i, j | 0 <= i < j < |r|
        ensures Position(xs, r[i]) < Position(xs, r[j])
      {
        assert r[i] == r0[i] && r[i] in front;
        assert Position(xs, r[i]) == Position(front, r[i]) < n;
        if j < |r0| {
          assert r[j] == r0[j] && r[j] in front;
          assert Position(xs, r[j]) == Position(front, r[j]);
          assert Position(front, r0[i]) < Position(front, r0[j]);
        } else {
          assert r[j] == x && x !in front;
          assert xs[..n] == front;
          PositionUnique(xs, x, n);
        }
      }
    }
  }
}

=== FILE: paths.dfy ===
/** Path text as `java.nio.file.Path` keeps it on a Unix file system: `/` is
    the only separator. */
module Paths {

  /** No separator directly follows another. */
  predicate NoDoubleSeparator(p: string) {
    forall i :: 0 < i < |p| ==> !(p[i - 1] == '/' && p[i] == '/')
  }

  /** The path with its trailing separators removed. */
  function TrimSeparators(p: string): (r: string)
    ensures |r| <= |p| && p[..|r|] == r
    ensures r == [] || r[|r| - 1] != '/'
    ensures forall i :: |r| <= i < |p| ==> p[i] == '/'
  {
    if p == [] || p[|p| - 1] != '/' then p else TrimSeparators(p[..|p| - 1])
  }

  /** The path with every run of separators shortened to one. */
  function Collapse(p: string): (r: string)
    ensures |r| <= |p|
    ensures p != [] ==> r != [] && r[|r| - 1] == p[|p| - 1]
    ensures NoDoubleSeparator(r)
  {
    if |p| <= 1 then p
    else
      var n := |p| - 1;
      var front := Collapse(p[..n]);
      if p[n] == '/' && p[n - 1] == '/' then front else front + [p[n]]
  }

  /** The text of `Path.of(p)`: runs of separators collapsed and a trailing
      separator dropped, except for the root `/` itself. */
  function PathText(p: string): (r: string)
    ensures NoDoubleSeparator(r)
    ensures |r| > 1 ==> r[|r| - 1] != '/'
    ensures r == [] <==> p == []
  {
    var c := Collapse(p);
    if |c| > 1 && c[|c| - 1] == '/' then c[..|c| - 1] else c
  }

  lemma {:induction false} CollapseClean(p: string)
    requires NoDoubleSeparator(p)
    ensures Collapse(p) == p
    decreases |p|
  {
    if |p| > 1 {
      var n := |p| - 1;
      assert NoDoubleSeparator(p[..n]) by {
        forall i | 0 < i < n
          ensures !(p[..n][i - 1] == '/' && p[..n][i] == '/')
        {
          assert p[..n][i - 1] == p[i - 1] && p[..n][i] == p[i];
        }
      }
      CollapseClean(p[..n]);
      assert !(p[n - 1] == '/' && p[n] == '/');
      assert p[..n] + [p[n]] == p;
    }
  }

  /** Text already in the form `Path.of` gives is kept as it is. */
  lemma PathTextClean(p: string)
    requires NoDoubleSeparator(p) && (|p| > 1 ==> p[|p| - 1] != '/')
    ensures PathText(p) == p
  {
    CollapseClean(p);
  }

  /** Building a path from its own text changes nothing. */
  lemma PathTextIdempotent(p: string)
    ensures PathText(PathText(p)) == PathText(p)
  {
    PathTextClean(PathText(p));
  }

  /** A trailing separator makes no difference: `lib/` names `lib`. */
  lemma PathTextDropsTrailing(p: string)
    requires p != []
    ensures PathText(p + "/") == PathText(p)
  {
    var q := p + "/";
    var n := |q| - 1;
    assert q[..n] == p && q[n] == '/' && q[n - 1] == p[|p| - 1];
    var c := Collapse(p);
    if p[|p| - 1] == '/' {
      assert Collapse(q) == c;
    } else {
      assert Collapse(q) == c + ['/'];
      assert (c + ['/'])[..|c|] == c;
    }
  }
}

=== FILE: payloads.dfy ===
/** The JSON document printed after an evaluation (`outputResult`), as a
    datatype: the order of its maps is kept, the printing is not modelled. */
module Payloads {
  import opened Wrappers
  import opened Linked
  import opened Values
  import opened Sanitizer
  import opened Dmn

  /** One entry of `errors`: the message text and its type. */
  datatype ErrorEntry = ErrorEntry(message: string, messageType: string)

  /** One entry of `decisions`: the sanitised result and the status name. */
  datatype DecisionEntry = DecisionEntry(result: Value, status: string)

  datatype ResultPayload = ResultPayload(
    success: bool,
    errors: Option<seq<ErrorEntry>>,
    decisions: seq<(string, DecisionEntry)>,
    results: seq<(string, Value)>)

  /** The ERROR-severity messages as error entries, in order. */
  function ErrorEntries(ms: seq<Message>): (r: seq<ErrorEntry>)
    ensures |r| == |ErrorMessages(ms)|
    ensures forall i :: 0 <= i < |r| ==>
      r[i] == ErrorEntry(ErrorMessages(ms)[i].text, ErrorMessages(ms)[i].messageType)
  {
    var es := ErrorMessages(ms);
    seq(|es|, i requires 0 <= i < |es| => ErrorEntry(es[i].text, es[i].messageType))
  }

  /** A decision's entry: its sanitised result, a null result being shown as
      the string "null", and its status. A handle is shown as its marker here;
      nothing is dropped. */
  function DecisionEntryOf(d: DecisionResult): (r: DecisionEntry)
    ensures !r.result.Null?
    ensures d.result.Null? ==> r.result == Str("null")
    ensures !d.result.Null? ==> r.result == Sanitize(d.result)
    ensures r.status == StatusName(d.status)
  {
    var s := Sanitize(d.result);
    DecisionEntry(if s == Null then Str("null") else s, StatusName(d.status))
  }

  function DecisionPairs(ds: seq<DecisionResult>): (r: seq<(string, DecisionEntry)>)
    ensures |r| == |ds|
    ensures forall i :: 0 <= i < |ds| ==> r[i] == (ds[i].name, DecisionEntryOf(ds[i]))
  {
    seq(|ds|, i requires 0 <= i < |ds| => (ds[i].name, DecisionEntryOf(ds[i])))
  }

  /** The context entries that go into `results`: not a key of the input, and
      a sanitised value that is neither null nor marker-like. */
  predicate Reported(inputs: seq<(string, Value)>, e: (string, Value)) {
    e.0 !in Keys(inputs) && !Dropped(Sanitize(e.1))
  }

  /** What one context entry contributes to `results`. */
  function ReportedPair(inputs: seq<(string, Value)>, e: (string, Value)): seq<(string, Value)> {
    if Reported(inputs, e) then [(e.0, Sanitize(e.1))] else []
  }

  function Reporter(inputs: seq<(string, Value)>): ((string, Value)) -> seq<(string, Value)> {
    e => ReportedPair(inputs, e)
  }

  /** `p` is the `i`-th context entry, sanitised, and that entry is reported. */
  predicate ReportedAt(ctx: seq<(string, Value)>, inputs: seq<(string, Value)>, i: int, p: (string, Value)) {
    0 <= i < |ctx| && Reported(inputs, ctx[i]) && p == (ctx[i].0, Sanitize(ctx[i].1))
  }

  /** The pairs `results` is filled from, in context order. */
  function ResultPairs(ctx: seq<(string, Value)>, inputs: seq<(string, Value)>): (r: seq<(string, Value)>)
    ensures forall p :: p in r <==> exists i :: ReportedAt(ctx, inputs, i, p)
    ensures forall p :: p in r ==> p.0 !in Keys(inputs) && !Dropped(p.1)
  {
    ResultPairsMembers(ctx, inputs);
    FlatMap(ctx, Reporter(inputs))
  }

  lemma ResultPairsMembers(ctx: seq<(string, Value)>, inputs: seq<(string, Value)>)
    ensures forall p :: p in FlatMap(ctx, Reporter(inputs)) <==> exists i :: ReportedAt(ctx, inputs, i, p)
  {
    var f := Reporter(inputs);
    FlatMapMembers(ctx, f);
    forall p
      ensures p in FlatMap(ctx, f) <==> exists i :: ReportedAt(ctx, inputs, i, p)
    {
      if exists i :: ContributedAt(ctx, f, i, p) {
        var i :| ContributedAt(ctx, f, i, p);
        assert ReportedAt(ctx, inputs, i, p);
      }
      if exists i :: ReportedAt(ctx, inputs, i, p) {
        var i :| ReportedAt(ctx, inputs, i, p);
        assert ContributedAt(ctx, f, i, p);
      }
    }
  }

  /** Every value in `results` is clean at every depth. */
  lemma ResultPairsClean(ctx: seq<(string, Value)>, inputs: seq<(string, Value)>)
    ensures forall p :: p in ResultPairs(ctx, inputs) ==> IsClean(p.1)
  {
    forall p | p in ResultPairs(ctx, inputs)
      ensures IsClean(p.1)
    {
      var i :| ReportedAt(ctx, inputs, i, p);
      SanitizeIsClean(ctx[i].1);
    }
  }

  /** The `decisions` object: one entry per decision result, keyed by name. */
  function Decisions(ds: seq<DecisionResult>): (r: seq<(string, DecisionEntry)>)
    ensures forall k :: k in Keys(r) <==> exists i :: 0 <= i < |ds| && ds[i].name == k
    ensures forall e :: e in r ==> !e.1.result.Null?
    ensures NoDuplicates(Keys(r))
  {
    DecisionKeys(ds);
    PutAll([], DecisionPairs(ds))
  }

  /** The `results` object: the reported context entries, keyed by name. */
  function Results(ctx: seq<(string, Value)>, inputs: seq<(string, Value)>): (r: seq<(string, Value)>)
    ensures NoDuplicates(Keys(r))
    ensures forall e :: e in r ==> e.0 !in Keys(inputs) && !Dropped(e.1) && IsClean(e.1)
  {
    ResultPairsClean(ctx, inputs);
    PutAll([], ResultPairs(ctx, inputs))
  }

  /** `outputResult`. */
  function OutputResult(result: EvalResult, inputs: seq<(string, Value)>): (r: ResultPayload)
    ensures r.success == !result.hasErrors
    ensures r.errors.Some? <==> result.hasErrors
    ensures r.errors.Some? ==> r.errors.value == ErrorEntries(result.messages)
    ensures forall k :: k in Keys(r.decisions) <==> exists i :: 0 <= i < |result.decisionResults| && result.decisionResults[i].name == k
    ensures forall e :: e in r.decisions ==> !e.1.result.Null?
    ensures NoDuplicates(Keys(r.decisions)) && NoDuplicates(Keys(r.results))
    ensures forall e :: e in r.results ==> e.0 !in Keys(inputs) && !Dropped(e.1) && IsClean(e.1)
  {
    ResultPayload(
      !result.hasErrors,
      if result.hasErrors then Some(ErrorEntries(result.messages)) else None,
      Decisions(result.decisionResults),
      Results(result.context, inputs))
  }

  /** Every decision result's name, and nothing else, keys `decisions`. */
  lemma DecisionKeys(ds: seq<DecisionResult>)
    ensures forall k :: k in Keys(PutAll([], DecisionPairs(ds))) <==> exists i :: 0 <= i < |ds| && ds[i].name == k
  {
    var ps := DecisionPairs(ds);
    PutAllKeys([], ps);
    assert forall i :: 0 <= i < |ps| ==> Keys(ps)[i] == ds[i].name;
    forall k | k in Keys(ps)
      ensures exists i :: 0 <= i < |ds| && ds[i].name == k
    {
      var i :| 0 <= i < |ps| && Keys(ps)[i] == k;
    }
  }

  /** A decision's entry is found under its name unless a later decision
      result has the same name (the later one then overwrites it). */
  lemma DecisionLookup(result: EvalResult, inputs: seq<(string, Value)>, i: int)
    requires 0 <= i < |result.decisionResults|
    requires forall j :: i < j < |result.decisionResults| ==> result.decisionResults[j].name != result.decisionResults[i].name
    ensures Get(OutputResult(result, inputs).decisions, result.decisionResults[i].name) == Some(DecisionEntryOf(result.decisionResults[i]))
  {
    var ps := DecisionPairs(result.decisionResults);
    PutAllLastWins([], ps, i);
  }

  /** Context keys are distinct, so the kept pairs are too. */
  lemma ResultPairsDistinct(ctx: seq<(string, Value)>, inputs: seq<(string, Value)>)
    requires NoDuplicates(Keys(ctx))
    ensures NoDuplicates(Keys(ResultPairs(ctx, inputs)))
  {
    var key := (e: (string, Value)) => e.0;
    forall i, j | 0 <= i < j < |ctx|
      ensures key(ctx[i]) != key(ctx[j])
    {
      assert Keys(ctx)[i] == ctx[i].0 && Keys(ctx)[j] == ctx[j].0;
    }
    FlatMapDistinctKeys(ctx, Reporter(inputs), key);
  }

  /** With a proper context (distinct keys), `results` is exactly the
      reported context entries, sanitised, in context order. */
  lemma ResultsAreReportedContext(result: EvalResult, inputs: seq<(string, Value)>)
    requires NoDuplicates(Keys(result.context))
    ensures OutputResult(result, inputs).results == ResultPairs(result.context, inputs)
  {
    ResultPairsDistinct(result.context, inputs);
    PutAllDistinct(ResultPairs(result.context, inputs));
  }

  /** A reported context entry is found in `results` under its key with its
      sanitised value; an input key, or an entry whose value is null or
      marker-like, is not there at all. */
  lemma ResultsLookup(result: EvalResult, inputs: seq<(string, Value)>, i: int)
    requires NoDuplicates(Keys(result.context)) && 0 <= i < |result.context|
    ensures var e := result.context[i];
      Get(OutputResult(result, inputs).results, e.0) == if Reported(inputs, e) then Some(Sanitize(e.1)) else None
  {
    var ctx := result.context;
    var f := Reporter(inputs);
    var e := ctx[i];
    ResultsUnfold(result, inputs);
    OtherEntriesElsewhere(ctx, inputs, i);
    if Reported(inputs, e) {
      FlatMapLastWins(ctx, f, i, e.0, Sanitize(e.1));
    } else {
      FlatMapAbsent(ctx, f, e.0);
    }
  }

  lemma ResultsUnfold(result: EvalResult, inputs: seq<(string, Value)>)
    ensures OutputResult(result, inputs).results == PutAll([], FlatMap(result.context, Reporter(inputs)))
  {
  }

  /** In a context with distinct keys, no other entry contributes the key of
      entry `i`. */
  lemma OtherEntriesElsewhere(ctx: seq<(string, Value)>, inputs: seq<(string, Value)>, i: int)
    requires NoDuplicates(Keys(ctx)) && 0 <= i < |ctx|
    ensures forall j :: 0 <= j < |ctx| && j != i ==> ctx[i].0 !in Keys(Reporter(inputs)(ctx[j]))
    ensures Reporter(inputs)(ctx[i]) == ReportedPair(inputs, ctx[i])
  {
    forall j | 0 <= j < |ctx| && j != i
      ensures ctx[i].0 !in Keys(Reporter(inputs)(ctx[j]))
    {
      assert Keys(ctx)[j] == ctx[j].0 && Keys(ctx)[i] == ctx[i].0;
    }
  }

  /** No input key ever appears in `results`. */
  lemma InputsNeverReported(result: EvalResult, inputs: seq<(string, Value)>, k: string)
    requires k in Keys(inputs)
    ensures Get(OutputResult(result, inputs).results, k) == None
  {
    var rs := OutputResult(result, inputs).results;
    forall q | 0 <= q < |rs|
      ensures Keys(rs)[q] != k
    {
      assert rs[q] in rs;
    }
    GetAbsent(rs, k);
  }

  /** A decision whose result is an engine handle is listed with the marker
      text, while the same value is left out of `results`. */
  lemma HandleDecisionShowsMarker(d: DecisionResult)
    requires IsHandle(d.result)
    ensures DecisionEntryOf(d).result == Str(Marker(d.result.simpleName))
    ensures !Reported([], (d.name, d.result))
  {
    NestedHandleDropped(d.result);
  }
}

=== FILE: resources.dfy ===
/** The set of model files handed to the engine (the path-collecting part of
    `createRuntime`), over a snapshot of the file system. */
module Resources {
  import opened Wrappers
  import opened Strings
  import opened Linked
  import opened Paths

  /** What a path names: a regular file, or a directory with its entries as
      the directory listing gives them (each the directory path joined with an
      entry name). */
  datatype Node = File | Directory(entries: seq<string>)

  /** A snapshot of the file system: the node each existing path names, the
      absolute form of a path, and the parent of an absolute path (none for a
      root). Paths are looked up by the text `Path.of` makes of them. */
  datatype FileSystem = FileSystem(
    nodes: map<string, Node>,
    absolute: string -> string,
    parent: string -> Option<string>)

  datatype ResourceError =
    | FileNotFound(path: string)   // the main file does not exist
    | ListFailed(dir: string)      // the main file's directory cannot be listed

  /** The `.dmn` test, made on the whole path text, ignoring case. */
  predicate IsDmnPath(p: string) {
    EndsWith(Lower(p), ".dmn")
  }

  predicate IsDirectory(fs: FileSystem, p: string) {
    p in fs.nodes && fs.nodes[p].Directory?
  }

  /** The absolute forms of the `.dmn` paths among `ps`, in order. */
  function DmnPaths(fs: FileSystem, ps: seq<string>): (r: seq<string>)
    ensures forall x :: x in r <==> exists p :: p in ps && IsDmnPath(p) && x == fs.absolute(p)
  {
    if ps == [] then []
    else
      var n := |ps| - 1;
      var front := DmnPaths(fs, ps[..n]);
      assert ps == ps[..n] + [ps[n]];
      front + (if IsDmnPath(ps[n]) then [fs.absolute(ps[n])] else [])
  }

  /** What one import path contributes, once `Path.of` has read it: for a
      directory, the `.dmn` paths of a depth-one walk, which yields the
      directory itself before its entries; for any other existing path, that
      path; for a missing path, nothing. */
  function ImportPaths(fs: FileSystem, imp: string): seq<string> {
    var p := PathText(imp);
    if IsDirectory(fs, p) then DmnPaths(fs, [p] + fs.nodes[p].entries)
    else if p in fs.nodes then [fs.absolute(p)]
    else []
  }

  /** The contributions of all import paths, in order. */
  function AllImportPaths(fs: FileSystem, imports: seq<string>): seq<string> {
    FlatMap(imports, Importer(fs))
  }

  function Importer(fs: FileSystem): string -> seq<string> {
    imp => ImportPaths(fs, imp)
  }

  /** The `.dmn` entries of the main file's directory, when auto-import is on
      and that directory exists (a root has none). */
  function SiblingPaths(fs: FileSystem, mainFile: string, autoImport: bool): (r: Result<seq<string>, ResourceError>)
    ensures r.Failure? <==> autoImport && fs.parent(fs.absolute(PathText(mainFile))).Some?
                            && !IsDirectory(fs, fs.parent(fs.absolute(PathText(mainFile))).value)
    ensures r.Success? && !autoImport ==> r.value == []
  {
    if !autoImport then Success([])
    else match fs.parent(fs.absolute(PathText(mainFile)))
      case None => Success([])
      case Some(dir) =>
        if IsDirectory(fs, dir) then Success(DmnPaths(fs, fs.nodes[dir].entries))
        else Failure(ListFailed(dir))
  }

  /** The path set built by `createRuntime`: a missing main file is reported
      before anything is collected; otherwise the set starts with the main
      file's absolute path, and the imports' and then the siblings' paths are
      added to it in order, each at most once. */
  function CollectPaths(fs: FileSystem, mainFile: string, imports: seq<string>, autoImport: bool)
    : (r: Result<seq<string>, ResourceError>)
    ensures PathText(mainFile) !in fs.nodes ==> r == Failure(FileNotFound(mainFile))
    ensures PathText(mainFile) in fs.nodes ==>
      (r.Failure? <==> SiblingPaths(fs, mainFile, autoImport).Failure?) &&
      (r.Failure? ==> r.error.ListFailed?)
    ensures r.Success? ==> |r.value| > 0 && r.value[0] == fs.absolute(PathText(mainFile))
    ensures r.Success? ==> NoDuplicates(r.value)
  {
    var main := PathText(mainFile);
    if main !in fs.nodes then Failure(FileNotFound(mainFile))
    else
      var siblings :- SiblingPaths(fs, mainFile, autoImport);
      var r := AddAll([fs.absolute(main)], AllImportPaths(fs, imports) + siblings);
      assert r[..1] == [fs.absolute(main)];
      Success(r)
  }

  /** What importing `imp` brings in: for a directory, the absolute form of
      every `.dmn` path among the directory itself and its entries; for an
      existing file, its absolute form whatever its extension; for a missing
      path, nothing. */
  ghost predicate Imported(fs: FileSystem, imp: string, x: string) {
    var p := PathText(imp);
    if IsDirectory(fs, p) then
      (IsDmnPath(p) && x == fs.absolute(p)) ||
      exists e :: e in fs.nodes[p].entries && IsDmnPath(e) && x == fs.absolute(e)
    else p in fs.nodes && x == fs.absolute(p)
  }

  lemma ImportPathsMembers(fs: FileSystem, imp: string)
    ensures forall x :: x in ImportPaths(fs, imp) <==> Imported(fs, imp, x)
  {
    var d := PathText(imp);
    if IsDirectory(fs, d) {
      var ps := [d] + fs.nodes[d].entries;
      forall x
        ensures (exists p :: p in ps && IsDmnPath(p) && x == fs.absolute(p)) <==> Imported(fs, imp, x)
      {
        if exists e :: e in fs.nodes[d].entries && IsDmnPath(e) && x == fs.absolute(e) {
          var e :| e in fs.nodes[d].entries && IsDmnPath(e) && x == fs.absolute(e);
          assert e in ps;
        }
      }
    }
  }

  lemma AllImportPathsMembers(fs: FileSystem, imports: seq<string>)
    ensures forall x :: x in AllImportPaths(fs, imports) <==> exists i :: 0 <= i < |imports| && Imported(fs, imports[i], x)
  {
    FlatMapMembers(imports, Importer(fs));
    forall x
      ensures x in AllImportPaths(fs, imports) <==> exists i :: 0 <= i < |imports| && Imported(fs, imports[i], x)
    {
      if x in AllImportPaths(fs, imports) {
        var i :| ContributedAt(imports, Importer(fs), i, x);
        ImportPathsMembers(fs, imports[i]);
      }
      if exists i :: 0 <= i < |imports| && Imported(fs, imports[i], x) {
        var i :| 0 <= i < |imports| && Imported(fs, imports[i], x);
        ImportPathsMembers(fs, imports[i]);
        assert ContributedAt(imports, Importer(fs), i, x);
      }
    }
  }

  /** The imports' contributions for a concatenation of import lists. */
  lemma AllImportPathsSplit(fs: FileSystem, a: seq<string>, b: seq<string>)
    ensures AllImportPaths(fs, a + b) == AllImportPaths(fs, a) + AllImportPaths(fs, b)
  {
    FlatMapSplit(a, b, Importer(fs));
  }

  /** Paths that come from the main file's directory. */
  ghost predicate Sibling(fs: FileSystem, mainFile: string, x: string) {
    var dir := fs.parent(fs.absolute(PathText(mainFile)));
    && dir.Some?
    && IsDirectory(fs, dir.value)
    && exists e :: e in fs.nodes[dir.value].entries && IsDmnPath(e) && x == fs.absolute(e)
  }

  /** The set holds exactly the main file, what the imports bring in, and, with
      auto-import on, the `.dmn` entries of the main file's directory. */
  lemma CollectPathsMembers(fs: FileSystem, mainFile: string, imports: seq<string>, autoImport: bool)
    requires CollectPaths(fs, mainFile, imports, autoImport).Success?
    ensures forall x :: x in CollectPaths(fs, mainFile, imports, autoImport).value <==>
      || x == fs.absolute(PathText(mainFile))
      || (exists i :: 0 <= i < |imports| && Imported(fs, imports[i], x))
      || (autoImport && Sibling(fs, mainFile, x))
  {
    AllImportPathsMembers(fs, imports);
  }

  /** The set lists paths in the order of their first insertion. */
  lemma CollectPathsOrder(fs: FileSystem, mainFile: string, imports: seq<string>, autoImport: bool)
    requires CollectPaths(fs, mainFile, imports, autoImport).Success?
    ensures var r := CollectPaths(fs, mainFile, imports, autoImport).value;
      var inserted := [fs.absolute(PathText(mainFile))] + AllImportPaths(fs, imports) + SiblingPaths(fs, mainFile, autoImport).value;
      forall i, j :: 0 <= i < j < |r| ==> Position(inserted, r[i]) < Position(inserted, r[j])
  {
    var main := fs.absolute(PathText(mainFile));
    var rest := AllImportPaths(fs, imports) + SiblingPaths(fs, mainFile, autoImport).value;
    CollectPathsValue(fs, mainFile, imports, autoImport);
    SeqAssoc([main], AllImportPaths(fs, imports), SiblingPaths(fs, mainFile, autoImport).value);
    AddAllSeededOrder(main, rest);
  }

  /** A successful collection is the main path followed by the imports' and
      the siblings' paths, each added at most once. */
  lemma CollectPathsValue(fs: FileSystem, mainFile: string, imports: seq<string>, autoImport: bool)
    requires CollectPaths(fs, mainFile, imports, autoImport).Success?
    ensures CollectPaths(fs, mainFile, imports, autoImport).value ==
      AddAll([fs.absolute(PathText(mainFile))], AllImportPaths(fs, imports) + SiblingPaths(fs, mainFile, autoImport).value)
  {
  }

  lemma SeqAssoc<T>(a: seq<T>, b: seq<T>, c: seq<T>)
    ensures a + b + c == a + (b + c)
  {
  }

  /** A directory import whose own name ends in `.dmn` is itself collected,
      ahead of its entries: the depth-one walk yields the directory first. */
  lemma DmnNamedDirectoryCollected(fs: FileSystem, dir: string)
    requires IsDirectory(fs, PathText(dir)) && IsDmnPath(PathText(dir))
    ensures |ImportPaths(fs, dir)| > 0 && ImportPaths(fs, dir)[0] == fs.absolute(PathText(dir))
  {
    var d := PathText(dir);
    DmnPathsSplit(fs, [d], fs.nodes[d].entries);
    assert [d][..0] == [];
  }

  /** An import written with a trailing separator, such as `lib.dmn/`, brings
      in what the bare path does, the directory itself included. */
  lemma TrailingSeparatorIgnored(fs: FileSystem, imp: string)
    requires imp != []
    ensures ImportPaths(fs, imp + "/") == ImportPaths(fs, imp)
  {
    PathTextDropsTrailing(imp);
  }

  lemma {:induction false} DmnPathsSplit(fs: FileSystem, a: seq<string>, b: seq<string>)
    ensures DmnPaths(fs, a + b) == DmnPaths(fs, a) + DmnPaths(fs, b)
    decreases |b|
  {
    if b == [] {
      assert a + b == a;
    } else {
      var n := |b| - 1;
      var all := a + b;
      ConcatFront(a, b);
      DmnPathsSplit(fs, a, b[..n]);
      var t := if IsDmnPath(b[n]) then [fs.absolute(b[n])] else [];
      assert DmnPaths(fs, all) == DmnPaths(fs, a + b[..n]) + t;
      assert DmnPaths(fs, b) == DmnPaths(fs, b[..n]) + t;
    }
  }

  /** An import path that does not exist is skipped without complaint. */
  lemma MissingImportSkipped(fs: FileSystem, mainFile: string, pre: seq<string>, imp: string, post: seq<string>, autoImport: bool)
    requires PathText(imp) !in fs.nodes
    ensures CollectPaths(fs, mainFile, pre + [imp] + post, autoImport) == CollectPaths(fs, mainFile, pre + post, autoImport)
  {
    AllImportPathsSplit(fs, pre + [imp], post);
    AllImportPathsSplit(fs, pre, [imp]);
    AllImportPathsSplit(fs, pre, post);
    assert [imp][..0] == [];
    assert AllImportPaths(fs, [imp]) == [];
    assert AllImportPaths(fs, pre) + [] == AllImportPaths(fs, pre);
  }

  /** Importing the same paths twice changes nothing. */
  lemma RepeatedImportsIgnored(fs: FileSystem, mainFile: string, imports: seq<string>, autoImport: bool)
    ensures CollectPaths(fs, mainFile, imports + imports, autoImport) == CollectPaths(fs, mainFile, imports, autoImport)
  {
    var sib := SiblingPaths(fs, mainFile, autoImport);
    if PathText(mainFile) in fs.nodes && sib.Success? {
      var a := AllImportPaths(fs, imports);
      AllImportPathsSplit(fs, imports, imports);
      AddAllSkipsPresent([fs.absolute(PathText(mainFile))], a, a, sib.value);
    }
  }

  /** Importing the main file itself changes nothing either. */
  lemma MainFileImportIgnored(fs: FileSystem, mainFile: string, imports: seq<string>, autoImport: bool)
    requires !IsDirectory(fs, PathText(mainFile))
    ensures CollectPaths(fs, mainFile, imports + [mainFile], autoImport) == CollectPaths(fs, mainFile, imports, autoImport)
  {
    var sib := SiblingPaths(fs, mainFile, autoImport);
    if PathText(mainFile) in fs.nodes && sib.Success? {
      var m := [fs.absolute(PathText(mainFile))];
      AllImportPathsSplit(fs, imports, [mainFile]);
      assert [mainFile][..0] == [];
      assert AllImportPaths(fs, [mainFile]) == m;
      AddAllSkipsPresent(m, AllImportPaths(fs, imports), m, sib.value);
    }
  }
}

=== FILE: sanitizer.dfy ===
/** The result sanitiser (`sanitizeValue`): turns an engine result into a tree
    that is safe to serialise, replacing engine-internal handles (compiled
    functions, decision-service handles) by a marker string and dropping
    markers and nulls from every map and list. */
module Sanitizer {
  import opened Wrappers
  import opened Strings
  import opened Linked
  import opened Values

  const MarkerPrefix: string := "[DMN "

  /** The class-name test for an engine-internal handle: the class lives in the
      engine's package and its name mentions a function or a decision service. */
  predicate IsHandle(v: Value) {
    && v.Obj?
    && Contains(v.className, "org.kie.dmn")
    && (Contains(v.className, "Function") || Contains(v.className, "DecisionService"))
  }

  /** The marker a handle is replaced by: `[DMN <simple class name>]`. */
  function Marker(simpleName: string): string {
    MarkerPrefix + simpleName + "]"
  }

  /** A sanitised child that maps and lists leave out: null, or a value whose
      rendering starts with the marker prefix. Only strings are taken to render
      that way. */
  predicate Dropped(v: Value) {
    v.Null? || (v.Str? && StartsWith(v.s, MarkerPrefix))
  }

  /** A sanitised tree: no handle anywhere, no dropped value inside a map or a
      list, and every map keyed by distinct strings. */
  ghost predicate IsClean(v: Value)
    decreases v
  {
    match v
    case Obj(_, _) => !IsHandle(v)
    case ListV(xs) => forall i :: 0 <= i < |xs| ==> !Dropped(xs[i]) && IsClean(xs[i])
    case MapV(es) =>
      && NoDuplicates(Keys(es))
      && forall i :: 0 <= i < |es| ==> es[i].0.StrKey? && !Dropped(es[i].1) && IsClean(es[i].1)
    case _ => true
  }

  /** `sanitizeValue`. */
  function Sanitize(v: Value): (r: Value)
    decreases v, 1
    ensures r.Null? <==> v.Null?
    ensures IsHandle(v) ==> r == Str(Marker(v.simpleName))
    ensures !IsHandle(v) && !v.MapV? && !v.ListV? ==> r == v
    ensures v.MapV? ==> r.MapV?
    ensures v.ListV? ==> r.ListV? && |r.items| <= |v.items|
  {
    if v.Null? then Null
    else if IsHandle(v) then Str(Marker(v.simpleName))
    else match v
      case MapV(es) => MapV(PutAll([], KeptPairs(es)))
      case ListV(xs) => ListV(SanitizeList(xs))
      case _ => v
  }

  /** The list branch: each element sanitised, the dropped ones left out. */
  function SanitizeList(xs: seq<Value>): (r: seq<Value>)
    decreases xs, 0
    ensures |r| <= |xs|
    ensures forall i :: 0 <= i < |r| ==> !Dropped(r[i])
  {
    if xs == [] then []
    else
      var n := |xs| - 1;
      var s := Sanitize(xs[n]);
      SanitizeList(xs[..n]) + (if Dropped(s) then [] else [s])
  }

  /** The map branch before insertion: for each entry kept, its stringified
      key and sanitised value, in iteration order. */
  function KeptPairs(es: seq<(Key, Value)>): (r: seq<(Key, Value)>)
    decreases es, 0
    ensures |r| <= |es|
    ensures forall p :: p in r ==> p.0.StrKey? && !Dropped(p.1)
  {
    if es == [] then []
    else
      var n := |es| - 1;
      var e := es[n];
      assert e.1 < e;
      var s := Sanitize(e.1);
      KeptPairs(es[..n]) + (if Dropped(s) then [] else [(StrKey(KeyString(e.0)), s)])
  }

  /** The result of sanitising is clean at every depth: no handle survives,
      no map or list keeps a null or marker-like child, and map keys are
      distinct strings. */
  lemma {:induction false} SanitizeIsClean(v: Value)
    ensures IsClean(Sanitize(v))
    decreases v, 1
  {
    if !v.Null? && !IsHandle(v) {
      match v
      case MapV(es) =>
        var kept := KeptPairs(es);
        var m := PutAll([], kept);
        KeptPairsAreClean(es);
        assert NoDuplicates(Keys(m)) by {
          assert NoDuplicates(Keys<Key, Value>([]));
        }
        forall i | 0 <= i < |m|
          ensures m[i].0.StrKey? && !Dropped(m[i].1) && IsClean(m[i].1)
        {
          assert m[i] in m;
        }
      case ListV(xs) =>
        SanitizeListIsClean(xs);
      case _ =>
    }
  }

  lemma {:induction false} SanitizeListIsClean(xs: seq<Value>)
    ensures forall i :: 0 <= i < |SanitizeList(xs)| ==> IsClean(SanitizeList(xs)[i])
    decreases xs, 0
  {
    if xs != [] {
      var n := |xs| - 1;
      SanitizeListIsClean(xs[..n]);
      SanitizeIsClean(xs[n]);
    }
  }

  lemma {:induction false} KeptPairsAreClean(es: seq<(Key, Value)>)
    ensures forall p :: p in KeptPairs(es) ==> IsClean(p.1)
    decreases es, 0
  {
    if es != [] {
      var n := |es| - 1;
      var e := es[n];
      assert e.1 < e;
      KeptPairsAreClean(es[..n]);
      SanitizeIsClean(e.1);
    }
  }

  /** Sanitising a list works element by element: the result for a
      concatenation is the concatenation of the results, so survivors keep
      their relative order. */
  lemma {:induction false} SanitizeListSplit(xs: seq<Value>, ys: seq<Value>)
    ensures SanitizeList(xs + ys) == SanitizeList(xs) + SanitizeList(ys)
  {
    SanitizeListIsFlatMap(xs + ys);
    SanitizeListIsFlatMap(xs);
    SanitizeListIsFlatMap(ys);
    FlatMapSplit(xs, ys, KeptElement);
  }

  /** What one list element contributes to the sanitised list. */
  function KeptElement(x: Value): seq<Value> {
    var s := Sanitize(x);
    if Dropped(s) then [] else [s]
  }

  lemma SanitizeListLast(xs: seq<Value>)
    requires xs != []
    ensures SanitizeList(xs) == SanitizeList(xs[..|xs| - 1]) + KeptElement(xs[|xs| - 1])
  {
  }

  /** The list branch is a flat-map of the elements' contributions. */
  lemma {:induction false} SanitizeListIsFlatMap(xs: seq<Value>)
    ensures SanitizeList(xs) == FlatMap(xs, KeptElement)
  {
    if xs != [] {
      var n := |xs| - 1;
      SanitizeListIsFlatMap(xs[..n]);
      FlatMapLast(xs, KeptElement);
      assert SanitizeList(xs) == SanitizeList(xs[..n]) + KeptElement(xs[n]);
    }
  }

  lemma SanitizeListOne(x: Value)
    ensures SanitizeList([x]) == (if Dropped(Sanitize(x)) then [] else [Sanitize(x)])
  {
    assert [x][..0] == [];
  }

  /** `y` is what the `i`-th element of `xs` sanitises to, and it is kept. */
  predicate SurvivorAt(xs: seq<Value>, i: int, y: Value) {
    0 <= i < |xs| && y == Sanitize(xs[i]) && !Dropped(y)
  }

  /** The elements of a sanitised list are exactly the sanitised elements of
      the input that are not dropped. */
  lemma SanitizeListMembers(xs: seq<Value>)
    ensures forall y :: y in SanitizeList(xs) <==> exists i :: SurvivorAt(xs, i, y)
  {
    SanitizeListIsFlatMap(xs);
    FlatMapMembers(xs, KeptElement);
    forall y
      ensures y in SanitizeList(xs) <==> exists i :: SurvivorAt(xs, i, y)
    {
      if exists i :: ContributedAt(xs, KeptElement, i, y) {
        var i :| ContributedAt(xs, KeptElement, i, y);
        assert SurvivorAt(xs, i, y);
      }
      if exists i :: SurvivorAt(xs, i, y) {
        var i :| SurvivorAt(xs, i, y);
        assert ContributedAt(xs, KeptElement, i, y);
      }
    }
  }

  /** What one map entry contributes to the kept pairs: its stringified key
      and sanitised value, unless that value is dropped. */
  function KeptPair(e: (Key, Value)): seq<(Key, Value)> {
    var s := Sanitize(e.1);
    if Dropped(s) then [] else [(StrKey(KeyString(e.0)), s)]
  }

  lemma KeptPairKeys(e: (Key, Value))
    ensures Keys(KeptPair(e)) == if Dropped(Sanitize(e.1)) then [] else [StrKey(KeyString(e.0))]
  {
  }

  lemma SanitizedMapEntries(es: seq<(Key, Value)>)
    ensures Sanitize(MapV(es)).entries == PutAll([], KeptPairs(es))
  {
  }

  lemma KeptPairsLast(es: seq<(Key, Value)>)
    requires es != []
    ensures KeptPairs(es) == KeptPairs(es[..|es| - 1]) + KeptPair(es[|es| - 1])
  {
  }

  /** The map branch collects the entries' contributions in iteration order. */
  lemma {:induction false} KeptPairsIsFlatMap(es: seq<(Key, Value)>)
    ensures KeptPairs(es) == FlatMap(es, KeptPair)
  {
    if es != [] {
      KeptPairsIsFlatMap(es[..|es| - 1]);
      KeptPairsLast(es);
      FlatMapLast(es, KeptPair);
    }
  }

  /** In a sanitised map, a key holds the sanitised value of the LAST source
      entry with that stringified key whose value survives, as a
      LinkedHashMap does when the same key is put twice. */
  lemma SanitizedMapLastWins(es: seq<(Key, Value)>, i: int)
    requires 0 <= i < |es| && !Dropped(Sanitize(es[i].1))
    requires forall j :: i < j < |es| && KeyString(es[j].0) == KeyString(es[i].0) ==> Dropped(Sanitize(es[j].1))
    ensures Get(Sanitize(MapV(es)).entries, StrKey(KeyString(es[i].0))) == Some(Sanitize(es[i].1))
  {
    var k := StrKey(KeyString(es[i].0));
    SanitizedMapEntries(es);
    KeptPairsIsFlatMap(es);
    forall j | i < j < |es|
      ensures k !in Keys(KeptPair(es[j]))
    {
      KeptPairKeys(es[j]);
    }
    FlatMapLastWins(es, KeptPair, i, k, Sanitize(es[i].1));
  }

  /** A stringified key none of whose source entries survives is absent. */
  lemma SanitizedMapAbsent(es: seq<(Key, Value)>, k: string)
    requires forall j :: 0 <= j < |es| && KeyString(es[j].0) == k ==> Dropped(Sanitize(es[j].1))
    ensures Get(Sanitize(MapV(es)).entries, StrKey(k)) == None
  {
    SanitizedMapEntries(es);
    KeptPairsIsFlatMap(es);
    forall j | 0 <= j < |es|
      ensures StrKey(k) !in Keys(KeptPair(es[j]))
    {
      KeptPairKeys(es[j]);
    }
    FlatMapAbsent(es, KeptPair, StrKey(k));
  }

  /** Sanitising maps piecewise: the pairs kept from a concatenation are the
      pairs kept from each part, in order. */
  lemma KeptPairsSplit(es: seq<(Key, Value)>, fs: seq<(Key, Value)>)
    ensures KeptPairs(es + fs) == KeptPairs(es) + KeptPairs(fs)
  {
    KeptPairsIsFlatMap(es + fs);
    KeptPairsIsFlatMap(es);
    KeptPairsIsFlatMap(fs);
    FlatMapSplit(es, fs, KeptPair);
  }

  /** When no two source keys render alike, the sanitised map holds exactly
      the kept pairs, in source order. */
  lemma SanitizedMapInOrder(es: seq<(Key, Value)>)
    requires forall i, j :: 0 <= i < j < |es| ==> KeyString(es[i].0) != KeyString(es[j].0)
    ensures Sanitize(MapV(es)).entries == KeptPairs(es)
  {
    SanitizedMapEntries(es);
    KeptPairsInOrder(es);
  }

  lemma KeptPairsInOrder(es: seq<(Key, Value)>)
    requires forall i, j :: 0 <= i < j < |es| ==> KeyString(es[i].0) != KeyString(es[j].0)
    ensures PutAll([], KeptPairs(es)) == KeptPairs(es)
  {
    KeptPairsDistinct(es);
    PutAllDistinct(KeptPairs(es));
  }

  lemma {:induction false} KeptPairsDistinct(es: seq<(Key, Value)>)
    requires forall i, j :: 0 <= i < j < |es| ==> KeyString(es[i].0) != KeyString(es[j].0)
    ensures NoDuplicates(Keys(KeptPairs(es)))
  {
    if es != [] {
      var n := |es| - 1;
      var front := es[..n];
      var p := KeptPairs(front);
      KeptPairsDistinct(front);
      KeptPairsLast(es);
      KeptPairKeys(es[n]);
      KeysConcat(p, KeptPair(es[n]));
      if !Dropped(Sanitize(es[n].1)) {
        var k := StrKey(KeyString(es[n].0));
        forall j | 0 <= j < |front|
          ensures k !in Keys(KeptPair(front[j]))
        {
          assert front[j] == es[j];
          KeptPairKeys(front[j]);
        }
        KeptPairsIsFlatMap(front);
        FlatMapKeyAbsent(front, KeptPair, k);
        NoDuplicatesSnoc(Keys(p), k);
      }
    }
  }


  /** A clean tree is left as it is. */
  lemma {:induction false} CleanIsFixpoint(v: Value)
    requires IsClean(v)
    ensures Sanitize(v) == v
    decreases v, 1
  {
    match v
    case ListV(xs) =>
      CleanListIsFixpoint(xs);
    case MapV(es) =>
      CleanPairsAreKept(es);
      assert [] + es == es;
      PutAllFresh([], es);
    case _ =>
  }

  lemma {:induction false} CleanListIsFixpoint(xs: seq<Value>)
    requires forall i :: 0 <= i < |xs| ==> !Dropped(xs[i]) && IsClean(xs[i])
    ensures SanitizeList(xs) == xs
    decreases xs, 0
  {
    if xs != [] {
      var n := |xs| - 1;
      CleanIsFixpoint(xs[n]);
      CleanListIsFixpoint(xs[..n]);
      assert xs[..n] + [xs[n]] == xs;
    }
  }

  lemma {:induction false} CleanPairsAreKept(es: seq<(Key, Value)>)
    requires forall i :: 0 <= i < |es| ==> es[i].0.StrKey? && !Dropped(es[i].1) && IsClean(es[i].1)
    ensures KeptPairs(es) == es
    decreases es, 0
  {
    if es != [] {
      var n := |es| - 1;
      var e := es[n];
      assert e.1 < e;
      CleanIsFixpoint(e.1);
      CleanPairsAreKept(es[..n]);
      assert (StrKey(KeyString(e.0)), e.1) == e;
      assert es[..n] + [e] == es;
    }
  }

  /** Sanitising twice is sanitising once. */
  lemma SanitizeIdempotent(v: Value)
    ensures Sanitize(Sanitize(v)) == Sanitize(v)
  {
    SanitizeIsClean(v);
    CleanIsFixpoint(Sanitize(v));
  }

  /** A handle found inside a map or a list is always left out there, since its
      marker starts with the marker prefix. */
  lemma NestedHandleDropped(x: Value)
    requires IsHandle(x)
    ensures Dropped(Sanitize(x))
    ensures SanitizeList([x]) == []
  {
    assert Marker(x.simpleName)[..|MarkerPrefix|] == MarkerPrefix;
    SanitizeListOne(x);
  }

  /** Any class of the engine's package whose name mentions `Function`, such as
      the handle returned for a function-valued decision, becomes its marker. */
  lemma FunctionHandleMarked(mid: string, tail: string, simpleName: string)
    ensures Sanitize(Obj("org.kie.dmn" + mid + "Function" + tail, simpleName)) == Str(Marker(simpleName))
  {
    var c := "org.kie.dmn" + mid + "Function" + tail;
    ContainsSelf("", "org.kie.dmn", mid + "Function" + tail);
    assert "" + "org.kie.dmn" + (mid + "Function" + tail) == c;
    ContainsSelf("org.kie.dmn" + mid, "Function", tail);
  }

  /** Likewise for a class whose name mentions `DecisionService`. */
  lemma ServiceHandleMarked(mid: string, tail: string, simpleName: string)
    ensures Sanitize(Obj("org.kie.dmn" + mid + "DecisionService" + tail, simpleName)) == Str(Marker(simpleName))
  {
    var c := "org.kie.dmn" + mid + "DecisionService" + tail;
    ContainsSelf("", "org.kie.dmn", mid + "DecisionService" + tail);
    assert "" + "org.kie.dmn" + (mid + "DecisionService" + tail) == c;
    ContainsSelf("org.kie.dmn" + mid, "DecisionService", tail);
  }

  /** An ordinary string that happens to start with the marker prefix is
      dropped from a list just as a marker is, while other elements stay. */
  lemma MarkerLikeStringDropped(note: string, n: int)
    ensures Sanitize(ListV([Str(MarkerPrefix + note), Null, Num(n)])) == ListV([Num(n)])
  {
    var marked := Str(MarkerPrefix + note);
    var xs := [marked, Null, Num(n)];
    assert (MarkerPrefix + note)[..|MarkerPrefix|] == MarkerPrefix;
    assert KeptElement(marked) == [];
    SanitizeListLast(xs);
    SanitizeListLast(xs[..2]);
    SanitizeListLast(xs[..1]);
    assert xs[..2][..1] == xs[..1] && xs[..1][..0] == [];
  }


  /** Keys are stringified before insertion, so the integer key 1 and the
      string key "1" collide: the key keeps its first position and the later
      value wins. */
  lemma KeyCollision()
    ensures Sanitize(MapV([(IntKey(1), Num(5)), (StrKey("1"), Num(6))])) == MapV([(StrKey("1"), Num(6))])
  {
    var es := [(IntKey(1), Num(5)), (StrKey("1"), Num(6))];
    var k := StrKey("1");
    assert KeyString(IntKey(1)) == "1";
    KeptPairsLast(es);
    KeptPairsLast(es[..1]);
    assert es[..1][..0] == [];
    assert KeptPairs(es) == [(k, Num(5)), (k, Num(6))];
    PutAllLast([], [(k, Num(5)), (k, Num(6))]);
    PutAllLast([], [(k, Num(5))]);
    SanitizedMapEntries(es);
  }


  /** An empty map inside a map is kept, not dropped. */
  lemma EmptyMapKept()
    ensures Sanitize(MapV([(StrKey("a"), MapV([]))])) == MapV([(StrKey("a"), MapV([]))])
  {
    CleanIsFixpoint(MapV([(StrKey("a"), MapV([]))]));
  }
}

=== FILE: selection.dfy ===
/** Choosing the main model among everything the runtime compiled
    (`findMainModel`). */
module Selection {
  import opened Wrappers
  import opened Strings
  import opened Dmn
  import opened Paths

  /** The text after the last separator. */
  function LastSegment(p: string): (r: string)
    ensures '/' !in r
    ensures |r| <= |p| && p[|p| - |r|..] == r
    ensures |r| < |p| ==> p[|p| - |r| - 1] == '/'
  {
    if p == [] then []
    else if p[|p| - 1] == '/' then []
    else LastSegment(p[..|p| - 1]) + [p[|p| - 1]]
  }

  /** `Path.of(p).getFileName()`: the last name element, trailing separators
      ignored. */
  function FileName(p: string): (r: string)
    ensures '/' !in r
  {
    LastSegment(TrimSeparators(p))
  }

  /** The file name with every `.dmn` and then every `.DMN` removed. */
  function BaseName(p: string): (r: string)
    ensures '/' !in r
  {
    var f := FileName(p);
    var r := RemoveAll(RemoveAll(f, ".dmn"), ".DMN");
    RemoveAllKeepsAbsent(f, ".dmn", '/');
    RemoveAllKeepsAbsent(RemoveAll(f, ".dmn"), ".DMN", '/');
    r
  }

  /** Removing text never introduces a character. */
  lemma {:induction false} RemoveAllKeepsAbsent(s: string, pat: string, c: char)
    requires pat != [] && c !in s
    ensures c !in RemoveAll(s, pat)
    decreases |s|
  {
    if |s| >= |pat| {
      if s[..|pat|] == pat {
        RemoveAllKeepsAbsent(s[|pat|..], pat, c);
      } else {
        assert c !in s[1..];
        RemoveAllKeepsAbsent(s[1..], pat, c);
      }
    }
  }

  /** The position of the first model accepted by `accepts`, or -1. */
  function FirstMatch(models: seq<Model>, accepts: string -> bool): (r: int)
    ensures -1 <= r < |models|
    ensures r == -1 <==> forall i :: 0 <= i < |models| ==> !accepts(models[i].name)
    ensures 0 <= r ==> accepts(models[r].name) && forall j :: 0 <= j < r ==> !accepts(models[j].name)
  {
    if models == [] then -1
    else if accepts(models[0].name) then 0
    else
      var k := FirstMatch(models[1..], accepts);
      assert forall j :: 1 <= j < |models| ==> models[1..][j - 1] == models[j];
      if k < 0 then -1 else k + 1
  }

  /** A model name given on the command line is used only when non-empty. */
  predicate Explicit(modelName: Option<string>) {
    modelName.Some? && modelName.value != ""
  }

  /** `findMainModel`: a non-empty explicit name selects the first model of that
      exact name, with no fallback; otherwise the first model whose name equals
      the main file's base name ignoring case, else the first model. */
  function FindMainModel(models: seq<Model>, mainFile: string, modelName: Option<string>): (r: Option<Model>)
    ensures r.Some? ==> r.value in models
    ensures r.None? <==> models == [] || (Explicit(modelName) && forall i :: 0 <= i < |models| ==> models[i].name != modelName.value)
    ensures Explicit(modelName) && r.Some? ==>
      exists i :: 0 <= i < |models| && r.value == models[i] && models[i].name == modelName.value &&
        forall j :: 0 <= j < i ==> models[j].name != modelName.value
    ensures !Explicit(modelName) && (exists i :: 0 <= i < |models| && EqualsIgnoreCase(models[i].name, BaseName(mainFile))) ==>
      exists i :: 0 <= i < |models| && r == Some(models[i]) && EqualsIgnoreCase(models[i].name, BaseName(mainFile)) &&
        forall j :: 0 <= j < i ==> !EqualsIgnoreCase(models[j].name, BaseName(mainFile))
    ensures !Explicit(modelName) && models != [] && (forall i :: 0 <= i < |models| ==> !EqualsIgnoreCase(models[i].name, BaseName(mainFile))) ==>
      r == Some(models[0])
  {
    if Explicit(modelName) then
      var k := FirstMatch(models, n => n == modelName.value);
      if k < 0 then None else Some(models[k])
    else
      var base := BaseName(mainFile);
      var k := FirstMatch(models, n => EqualsIgnoreCase(n, base));
      if 0 <= k then Some(models[k])
      else if models == [] then None
      else Some(models[0])
  }

  /** A main file `<dir>/<name>.dmn` whose name has no dot has base name `name`. */
  lemma BaseNameOfDmnFile(dir: string, name: string)
    requires '.' !in name && '/' !in name
    ensures BaseName(dir + "/" + name + ".dmn") == name
  {
    var p := dir + "/" + name + ".dmn";
    var f := name + ".dmn";
    assert TrimSeparators(p) == p;
    LastSegmentAfterSeparator(dir, f);
    assert p == dir + "/" + f;
    RemoveAllSkipsPrefix(name, ".dmn", ".dmn");
    assert RemoveAll(".dmn", ".dmn") == RemoveAll([], ".dmn");
    assert name + [] == name;
    RemoveAllFree(name, ".DMN");
  }

  lemma LastSegmentAfterSeparator(dir: string, f: string)
    requires '/' !in f
    ensures LastSegment(dir + "/" + f) == f
  {
    var p := dir + "/" + f;
    assert p[|p| - |f|..] == f;
    assert p[|p| - |f| - 1] == '/';
  }

  lemma RemoveAllWhole(pat: string)
    requires pat != []
    ensures RemoveAll(pat, pat) == []
  {
    assert pat[|pat|..] == [];
  }

  /** A text that differs from `pat` within `pat`'s length loses no prefix. */
  lemma RemoveAllStep(s: string, pat: string, k: int)
    requires pat != [] && |pat| <= |s| && 0 <= k < |pat| && s[k] != pat[k]
    ensures RemoveAll(s, pat) == [s[0]] + RemoveAll(s[1..], pat)
  {
    assert s[..|pat|][k] != pat[k];
  }

  /** The three spellings of the extension and how each removal treats them. */
  lemma ExtensionSpellings()
    ensures RemoveAll(".DMN", ".dmn") == ".DMN"
    ensures RemoveAll(".Dmn", ".dmn") == ".Dmn"
    ensures RemoveAll(".Dmn", ".DMN") == ".Dmn"
  {
    RemoveAllStep(".DMN", ".dmn", 1);
    assert ".DMN"[1..] == "DMN";
    assert [".DMN"[0]] + "DMN" == ".DMN";
    RemoveAllStep(".Dmn", ".dmn", 1);
    RemoveAllStep(".Dmn", ".DMN", 2);
    assert ".Dmn"[1..] == "Dmn";
    assert [".Dmn"[0]] + "Dmn" == ".Dmn";
  }

  /** Removing a pattern that starts with `.` leaves a dot-free prefix
      untouched: only the rest of the text is rewritten. */
  lemma StripTail(a: string, suffix: string, pat: string)
    requires pat != [] && pat[0] == '.' && '.' !in a
    ensures RemoveAll(a + suffix, pat) == a + RemoveAll(suffix, pat)
  {
    RemoveAllSkipsPrefix(a, suffix, pat);
  }

  /** The upper-case extension is removed as well. */
  lemma BaseNameOfUpperDmnFile(dir: string, name: string)
    requires '.' !in name && '/' !in name
    ensures BaseName(dir + "/" + name + ".DMN") == name
  {
    var p := dir + "/" + name + ".DMN";
    var f := name + ".DMN";
    assert TrimSeparators(p) == p;
    LastSegmentAfterSeparator(dir, f);
    assert p == dir + "/" + f;
    ExtensionSpellings();
    StripTail(name, ".DMN", ".dmn");
    StripTail(name, ".DMN", ".DMN");
    RemoveAllWhole(".DMN");
    assert name + [] == name;
  }

  /** Any other spelling of the extension, such as `.Dmn`, stays in the base
      name, which then matches no model called `name`. */
  lemma BaseNameKeepsMixedCase(dir: string, name: string)
    requires '.' !in name && '/' !in name
    ensures BaseName(dir + "/" + name + ".Dmn") == name + ".Dmn"
  {
    var p := dir + "/" + name + ".Dmn";
    var f := name + ".Dmn";
    assert TrimSeparators(p) == p;
    LastSegmentAfterSeparator(dir, f);
    assert p == dir + "/" + f;
    ExtensionSpellings();
    StripTail(name, ".Dmn", ".dmn");
    StripTail(name, ".Dmn", ".DMN");
  }

  /** A name without separators is its own file name. */
  lemma FileNameOfPlainName(f: string)
    requires '/' !in f
    ensures FileName(f) == f
  {
    assert f == [] || f[|f| - 1] != '/';
    assert TrimSeparators(f) == f;
  }

  lemma RemoveTwoOccurrences(a: string, b: string)
    requires '.' !in a && '.' !in b
    ensures RemoveAll(a + ".dmn" + b + ".dmn", ".dmn") == a + b
  {
    var t := ".dmn" + b + ".dmn";
    assert a + ".dmn" + b + ".dmn" == a + t;
    StripTail(a, t, ".dmn");
    assert t[..4] == ".dmn" && t[4..] == b + ".dmn";
    StripTail(b, ".dmn", ".dmn");
    RemoveAllWhole(".dmn");
    assert b + [] == b;
  }

  /** Every occurrence is removed, not only a trailing one. */
  lemma BaseNameRemovesInnerOccurrence(a: string, b: string)
    requires '.' !in a && '.' !in b && '/' !in a && '/' !in b
    ensures BaseName(a + ".dmn" + b + ".dmn") == a + b
  {
    var f := a + ".dmn" + b + ".dmn";
    assert '/' !in f;
    FileNameOfPlainName(f);
    RemoveTwoOccurrences(a, b);
    RemoveAllFree(a + b, ".DMN");
  }

  /** Without an explicit name, the model named after the main file
      `<dir>/<name>.dmn` is selected, whatever the case of either name, unless
      an earlier model also matches. */
  lemma SelectsModelNamedAfterFile(models: seq<Model>, dir: string, name: string, i: int)
    requires '.' !in name && '/' !in name
    requires 0 <= i < |models| && EqualsIgnoreCase(models[i].name, name)
    requires forall j :: 0 <= j < i ==> !EqualsIgnoreCase(models[j].name, name)
    ensures FindMainModel(models, dir + "/" + name + ".dmn", None) == Some(models[i])
  {
    BaseNameOfDmnFile(dir, name);
    var r := FindMainModel(models, dir + "/" + name + ".dmn", None);
    var k :| 0 <= k < |models| && r == Some(models[k]) && EqualsIgnoreCase(models[k].name, name) &&
      forall j :: 0 <= j < k ==> !EqualsIgnoreCase(models[j].name, name);
    if k != i {
      assert false;
    }
  }
}

=== FILE: strings.dfy ===
/** The java.lang.String operations the executor relies on, over `seq<char>`.
    Case conversion covers the ASCII letters only. */
module Strings {

  predicate StartsWith(s: string, prefix: string) {
    |prefix| <= |s| && s[..|prefix|] == prefix
  }

  predicate EndsWith(s: string, suffix: string) {
    |suffix| <= |s| && s[|s| - |suffix|..] == suffix
  }

  /** `part` occurs in `s` starting at position `i`. */
  predicate OccursAt(s: string, part: string, i: int) {
    0 <= i <= |s| - |part| && s[i..i + |part|] == part
  }

  /** `s.contains(part)`: `part` occurs in `s` at some position. */
  predicate Contains(s: string, part: string) {
    exists i | 0 <= i <= |s| - |part| :: OccursAt(s, part, i)
  }

  lemma ContainsWithin(a: string, s: string, b: string, part: string)
    requires Contains(s, part)
    ensures Contains(a + s + b, part)
  {
    var i :| 0 <= i <= |s| - |part| && OccursAt(s, part, i);
    var t := a + s + b;
    assert t[|a| + i..|a| + i + |part|] == s[i..i + |part|];
    assert OccursAt(t, part, |a| + i);
  }

  lemma ContainsSelf(a: string, part: string, b: string)
    ensures Contains(a + part + b, part)
  {
    assert (a + part + b)[|a|..|a| + |part|] == part;
    assert OccursAt(a + part + b, part, |a|);
  }

  function LowerChar(c: char): char {
    if 'A' <= c <= 'Z' then (c as int + 32) as char else c
  }

  /** `s.toLowerCase()` for ASCII text. */
  function Lower(s: string): string {
    seq(|s|, i requires 0 <= i < |s| => LowerChar(s[i]))
  }

  /** `a.equalsIgnoreCase(b)` for ASCII text. */
  predicate EqualsIgnoreCase(a: string, b: string) {
    Lower(a) == Lower(b)
  }

  /** `s.indexOf(c)`: the position of the first `c`, or -1. */
  function IndexOf(s: string, c: char): (r: int)
    ensures -1 <= r < |s|
    ensures r == -1 <==> c !in s
    ensures 0 <= r ==> s[r] == c && c !in s[..r]
  {
    if s == [] then -1
    else if s[0] == c then 0
    else
      var k := IndexOf(s[1..], c);
      if k < 0 then -1 else k + 1
  }

  /** `s.replace(pat, "")`: every occurrence of `pat`, found left to right
      without overlap, is removed; the text left behind is not searched again. */
  function RemoveAll(s: string, pat: string): (r: string)
    requires pat != []
    ensures |r| <= |s|
    decreases |s|
  {
    if |s| < |pat| then s
    else if s[..|pat|] == pat then RemoveAll(s[|pat|..], pat)
    else [s[0]] + RemoveAll(s[1..], pat)
  }

  /** Text that cannot start an occurrence of `pat` passes through untouched. */
  lemma {:induction false} RemoveAllSkipsPrefix(a: string, t: string, pat: string)
    requires pat != [] && pat[0] !in a
    ensures RemoveAll(a + t, pat) == a + RemoveAll(t, pat)
    decreases |a|
  {
    if a == [] {
      assert a + t == t;
    } else {
      var s := a + t;
      assert s[0] == a[0];
      assert s[1..] == a[1..] + t;
      RemoveAllKeepsHead(s, pat);
      RemoveAllSkipsPrefix(a[1..], t, pat);
      ConsConcat(a, RemoveAll(t, pat));
    }
  }

  /** A character that cannot start `pat` is kept, and the search resumes
      right after it. */
  lemma RemoveAllKeepsHead(s: string, pat: string)
    requires pat != [] && s != [] && s[0] != pat[0]
    ensures RemoveAll(s, pat) == [s[0]] + RemoveAll(s[1..], pat)
  {
    if |s| < |pat| {
      RemoveAllFreeShort(s[1..], pat);
    } else {
      assert s[..|pat|][0] != pat[0];
    }
  }

  lemma RemoveAllFreeShort(s: string, pat: string)
    requires pat != [] && |s| < |pat|
    ensures RemoveAll(s, pat) == s
  {
  }

  lemma ConsConcat<T>(a: seq<T>, b: seq<T>)
    requires a != []
    ensures [a[0]] + (a[1..] + b) == a + b
  {
  }

  /** Text without the first character of `pat` is left unchanged. */
  lemma RemoveAllFree(a: string, pat: string)
    requires pat != [] && pat[0] !in a
    ensures RemoveAll(a, pat) == a
  {
    RemoveAllSkipsPrefix(a, [], pat);
    assert a + [] == a;
  }

  function Join(xs: seq<string>, sep: string): string {
    if xs == [] then ""
    else if |xs| == 1 then xs[0]
    else xs[0] + sep + Join(xs[1..], sep)
  }

  /** The rendering `List.toString()` gives a list of strings: `[a, b, c]`. */
  function ListString(xs: seq<string>): string {
    "[" + Join(xs, ", ") + "]"
  }

  /** Every element of a joined list can be found in the joined text. */
  lemma {:induction false} JoinContainsEach(xs: seq<string>, sep: string)
    ensures forall x :: x in xs ==> Contains(Join(xs, sep), x)
  {
    if xs != [] {
      if |xs| == 1 {
        ContainsSelf([], xs[0], []);
        assert [] + xs[0] + [] == Join(xs, sep);
      } else {
        JoinContainsEach(xs[1..], sep);
        JoinCons(xs, sep);
        JoinContainsParts(xs[0], sep, Join(xs[1..], sep), xs[1..]);
      }
    }
  }

  lemma JoinCons(xs: seq<string>, sep: string)
    requires |xs| >= 2
    ensures Join(xs, sep) == xs[0] + sep + Join(xs[1..], sep)
  {
  }

  /** `head + sep + rest` contains `head` and whatever `rest` contains. */
  lemma JoinContainsParts(head: string, sep: string, rest: string, tail: seq<string>)
    requires forall x :: x in tail ==> Contains(rest, x)
    ensures Contains(head + sep + rest, head)
    ensures forall x :: x in tail ==> Contains(head + sep + rest, x)
  {
    ContainsSelf([], head, sep + rest);
    assert [] + head + (sep + rest) == head + sep + rest;
    forall x | x in tail
      ensures Contains(head + sep + rest, x)
    {
      ContainsWithin(head + sep, rest, [], x);
      assert head + sep + rest + [] == head + sep + rest;
    }
  }

  /** Every element of a list shows up in the list's rendering. */
  lemma ListStringContainsEach(xs: seq<string>)
    ensures forall x :: x in xs ==> Contains(ListString(xs), x)
  {
    JoinContainsEach(xs, ", ");
    forall x | x in xs
      ensures Contains(ListString(xs), x)
    {
      ContainsWithin("[", Join(xs, ", "), "]", x);
    }
  }
}

=== FILE: values.dfy ===
/** The run-time values that flow through the executor: decision results and
    the entries of an evaluation context. */
module Values {

  /** A map key as the engine may hand it over; the sanitiser turns every key
      into its `toString()` rendering. */
  datatype Key = StrKey(s: string) | IntKey(n: int) | BoolKey(b: bool)

  /** A value tree: null, scalars, maps (entries in iteration order), lists,
      and any other object, known only by its class names. Numbers are kept
      as integers; the executor does no arithmetic on them. */
  datatype Value =
    | Null
    | Bool(b: bool)
    | Num(n: int)
    | Str(s: string)
    | MapV(entries: seq<(Key, Value)>)
    | ListV(items: seq<Value>)
    | Obj(className: string, simpleName: string)

  function DigitChar(d: nat): char
    requires d < 10
  {
    "0123456789"[d]
  }

  /** The decimal rendering of a natural number. */
  function NatString(n: nat): (r: string)
    ensures |r| > 0
    ensures forall i :: 0 <= i < |r| ==> '0' <= r[i] <= '9'
  {
    if n < 10 then [DigitChar(n)] else NatString(n / 10) + [DigitChar(n % 10)]
  }

  /** `k.toString()`. */
  function KeyString(k: Key): string {
    match k
    case StrKey(s) => s
    case IntKey(n) => if n < 0 then "-" + NatString(-n) else NatString(n)
    case BoolKey(b) => if b then "true" else "false"
  }
}

=== FILE: wrappers.dfy ===
/** Optional values and outcomes that may fail. */
module Wrappers {

  /** Absent text or objects are `None`. */
  datatype Option<+T> = None | Some(value: T) {

    predicate IsFailure() {
      None?
    }

    function PropagateFailure<U>(): Option<U>
      requires None?
    {
      None
    }

    function Extract(): T
      requires Some?
    {
      value
    }
  }

  /** A step that either yields its value or stops with a reason. */
  datatype Result<+R, +E> = Success(value: R) | Failure(error: E) {

    predicate IsFailure() {
      Failure?
    }

    function PropagateFailure<U>(): Result<U, E>
      requires Failure?
    {
      Failure(error)
    }

    function Extract(): R
      requires Success?
    {
      value
    }
  }
}
